=== FILE: README.md ===
# bc/dc parser core in Dafny

This project models the bytecode-emission core of the bc/dc calculator. It
has two layers:

- **The emission layer shared by both front ends** (`src/parse.c`). It pushes
  pool indices and register names into the active function's code buffer.
  It appends numeric constants, registers functions, and holds the
  error-recovery reset and the parser's initial state.
- **The dc front end** (`src/dc/parse.c`). The token table maps many tokens
  straight to opcodes. The other tokens trigger small rules: registers,
  conditional execution with an optional `else`, memory and store
  sequences, string literals (each also registered as a function), numbers
  and negative numbers, and `read`. A static operand/result balance
  (`nbraces`) rejects opcodes that would find too few open operands.

The model is purely functional:

- The parser state (`Parse.Parser`) is an immutable record.
- The program is three sequences: constants, strings and functions.
- The lexer is a finished token sequence with a cursor and a current token.
- Each C routine that mutates the parser and returns a `BcStatus` becomes a
  function returning `Step(state, status)`. A failing routine hands back the
  state it left behind, as the C code does. So "nothing changed on failure"
  is a proved property, not something built into the model, and it holds
  only where the C code actually returns before writing.

Machine details are explicit:

- `size_t` is 64-bit.
- The update `nbraces -= noperands - nresults` wraps modulo 2^64
  (`CTypes.Wrap`, `DcParse.Balance`).
- The relational opcode is truncated to the `uint8_t` parameter of
  `dc_parse_cond`.

Some values are defined in headers outside this model:

- the opcode numbers;
- `BC_PARSE_STREND`, `BC_PROG_REQ_FUNCS` and `DC_PARSE_BUF_LEN`;
- the arity tables `dc_inst_noperands` and `dc_inst_nresults`;
- the token table `dc_parse_insts`.

They are declared as constants without a value, so every proof holds for
any choice of them. The worked examples in `dc_scenarios.dfy` fix only the
few table entries they need, in their preconditions.

Files:

| file | module | contents |
|---|---|---|
| ctypes.dfy | CTypes | bytes, `size_t`, wrap-around, C strings, vector growth limit |
| codec.dfy | Codec | index and name encodings with their decoders and round trips |
| dc_name.dfy | DcName | the zero-padded decimal name of a string literal's function |
| lex.dfy | Lex | tokens and the token cursor |
| prog.dfy | Prog | opcodes, functions, the program's pools and function table |
| parse.dfy | Parse | parser state, the shared emission helpers, reset, create |
| dc_parse.dfy | DcParse | the dc token rules and the balance check |
| dc_expr.dfy | DcExpr | the dc expression loop and the parse entry point |
| dc_scenarios.dfy | DcScenarios | worked inputs: `3 4 +`, `2 3 >a`, a comparison without operands |

## Model

| member | source | states |
|---|---|---|
| Codec.Digits | src/parse.c:60-63 | The collected digits are empty exactly when the index is 0, and the last collected digit is never 0. |
| Codec.DigitsValue | src/parse.c:60-63 | The collected digits, read little-endian in base 256, give back the index: sum of b_k * 256^k == idx. |
| Codec.ValueDigits | src/parse.c:60-63 | Conversely, any byte string without a trailing zero byte is the digit string of the number it denotes. So the encoding is a bijection onto canonical byte strings. |
| Codec.DigitsBound | src/parse.c:60-63 | An index with k digits lies in [256^(k-1), 256^k). |
| Codec.DigitsFitSizeT | src/parse.c:58-63 | A `size_t` has at most `sizeof(size_t)` = 8 digits, so `nums[sizeof(size_t)]` is never overrun. |
| Codec.IndexBytes | src/parse.c:55-69 | The bytes `pushIndex` appends: the first is the payload length `amt`, followed by exactly `amt` payload bytes, between 1 and 9 bytes in total. `idx == 0` gives exactly `[0]`, and a non-empty payload ends in a nonzero byte. |
| Codec.EncodeStep | src/parse.c:60-63 | One turn of the encoder loop writes the lowest digit into `nums[amt]` within the buffer. The remaining value `(idx & ~0xff) >> 8` holds the remaining digits. |
| Codec.EncodeIndex | src/parse.c:55-69 | The C loop, with its fixed 8-byte buffer, produces exactly the canonical encoding `IndexBytes(idx)`. The masking shift is taken as division by 256, which holds where `unsigned long` is as wide as `size_t`. |
| Codec.IndexRoundTrip | src/parse.c:55-69 | Whatever follows the encoded index, the reference decoder `Codec.ReadIndex` gets the index back and consumes exactly the encoded bytes. |
| Codec.ReadIndexCanonical | src/parse.c:55-69 | Any readable byte string with at most 8 payload bytes and no trailing zero is the encoding of the `size_t` it reads as. |
| Codec.NameBytes | src/parse.c:42-53 | `pushName` appends one byte more than the name's length, the last of which is `STREND`. |
| Codec.NameRoundTrip | src/parse.c:42-53 | Reading up to the first `STREND` recovers a name that holds no `STREND` byte, terminator consumed, whatever follows. |
| Codec.NameRecoveredIff | src/parse.c:42-53 | The name is recovered if and only if it holds no `STREND` byte. |
| DcName.Padded | src/dc/parse.c:58-61 | `%0*zu` output: all decimal digits, of length `max(width, digits of n)`. |
| DcName.PaddedRoundTrip | src/dc/parse.c:58-61 | The padded decimal name reads back as the string-pool slot it was made from. |
| DcName.StringFuncNamesDistinct | src/dc/parse.c:58-68 | Two string literals get the same function name if and only if they have the same string-pool slot. |
| Parse.PushIndex | src/parse.c:55-69 | Exactly `IndexBytes(idx)` is appended to the active function's code, which grows by `1 + amt`. Nothing else in the parser changes. |
| Parse.PushIndexReadsBack | src/parse.c:55-69 | The reference decoder, reading from where `pushIndex` started, yields `idx` and the number of bytes it appended. |
| Parse.PushName | src/parse.c:42-53 | Exactly the name bytes and one `STREND` are appended: the code grows by the name's length plus one and ends in `STREND`. Nothing else changes. |
| Parse.PushNameReadsBack | src/parse.c:42-53 | The reference decoder `Codec.ReadName` recovers the pushed name from where `pushName` started if and only if the name holds no `STREND`. |
| Parse.EmitNumber | src/parse.c:71-91 | It succeeds if and only if the constant pool can grow (in this model a vector fails to grow only when it already holds `SIZE_MAX` elements; see "Left out"). On failure it returns `ALLOC_ERR` with the state, `prev` and `nexs` unchanged. On success the token text is the new last constant, and `NUM` plus the index of that constant are appended. `*nexs` goes up by exactly one (mod 2^64) and `*prev == NUM`. |
| Parse.EmitNumberLayout | src/parse.c:75-85 | A successful number keeps the parse in the same function. The constants become `consts + [text]`, and the code becomes `code + [NUM] + IndexBytes(old consts.len)`, which the reference decoder reads back as the old length. |
| Parse.AddFunc | src/parse.c:36-40 | It succeeds if and only if the function table can grow (in this model a vector fails to grow only when it already holds `SIZE_MAX` elements; see "Left out"). On success `NewFunc(name)` is appended at index `old fns.len`, which is returned, and the active function and pools are kept. On failure nothing changes. |
| Parse.Reset | src/parse.c:108-130 | A non-main active function is abandoned: no code, autos, labels or parameters, but the same slot and name. Every other function and both pools are kept. Afterwards the parser is in main, at EOF with the lexer index at the end, with `nbraces == 0`, `auto_part` false, `flags` cut to its base entry and the other stacks empty. The status is the executor hook's verdict. |
| Parse.ResetFixpoints | src/parse.c:108-127 | Reset leaves a state unchanged if and only if that state is already clean. |
| Parse.ResetIdempotent | src/parse.c:108-130 | Resetting twice yields the same parser state as resetting once. |
| Parse.Create | src/parse.c:141-167 | The initial parser satisfies the standing invariant (`flags` non-empty, the active function exists). It starts with `flags == [0]`, `nbraces == 0`, `auto_part` false and empty stacks. |
| DcParse.Balance | src/dc/parse.c:36 | The `size_t` update `nbraces -= noperands - nresults` equals `nbraces - noperands + nresults` whenever that is in range. |
| DcParse.ParseInst | src/dc/parse.c:34-40 | It succeeds if and only if `nbraces >= noperands[inst]`. On success it appends exactly `inst` and updates the balance. Otherwise it returns `BAD_EXP` with the state unchanged. |
| DcParse.ParseInsts | src/dc/parse.c:88-93 | A run of balance-checked opcodes succeeds if and only if the static balance walk does. On success it appends the opcodes in order and ends at the walk's balance. A failure is `BAD_EXP`. Either way the parse is only extended, with the string pool and the function count kept. |
| DcParse.ParseRegister | src/dc/parse.c:42-53 | It always advances one token. It succeeds if and only if that token is a name, and then appends the name bytes and `STREND`. Otherwise it returns `BAD_TOKEN` with only the lexer moved. |
| DcParse.ParseString | src/dc/parse.c:55-80 | It never moves backwards in the input, and advances on success. The status is `SUCCESS`, `BAD_EXP` or `ALLOC_ERR`. A failed balance check returns `BAD_EXP` with nothing changed, in particular `strs`. |
| DcParse.ParseStringSucceeds | src/dc/parse.c:62-68 | It succeeds if and only if the balance allows `STR` and both the string pool and the function table can grow (in this model a vector fails to grow only when it already holds `SIZE_MAX` elements; see "Left out"). Past the balance check, every failure is `ALLOC_ERR`. |
| DcParse.ParseStringExtends | src/dc/parse.c:55-80 | Whatever the outcome, functions other than the active one are untouched. The active code and both pools only grow, and the bookkeeping stacks are kept. |
| DcParse.ParseStringEmits | src/dc/parse.c:59-69 | On success: `STR` and `IndexBytes(len)` are appended, with `len` the old `strs.len`. Exactly the literal is appended to `strs`, and exactly one function is appended, fresh and named `StringFuncName(len)`. The constants are kept, and the lexer moves one token. |
| DcParse.ParseStringOwnsFunc | src/dc/parse.c:67-71 | If string i owned function `i + BC_PROG_REQ_FUNCS` before, that still holds after a successful literal. The new string's function sits at `len + BC_PROG_REQ_FUNCS`, the index the source asserts. |
| DcParse.ParseMem | src/dc/parse.c:82-96 | The status is `SUCCESS`, `BAD_EXP` or `BAD_TOKEN`. A failed balance check on `inst` returns `BAD_EXP` with nothing changed. |
| DcParse.ParseMemExtends | src/dc/parse.c:82-96 | Whatever the outcome, the parse is only extended: other functions are untouched, the active code is only appended to, and the stacks are kept. The string pool and the function count are kept too. |
| DcParse.ParseMemEmits | src/dc/parse.c:82-96 | It succeeds if and only if the balance walk over `inst` (plus `SWAP ASSIGN POP` if storing) succeeds and, when a name is wanted, the next token is a name. It then appends `inst`, the register name (if any) and the store tail (if any), in that order, and ends at the walk's balance. |
| DcParse.ParseCond | src/dc/parse.c:98-114 | The status is `SUCCESS`, `BAD_EXP` or `BAD_TOKEN`. Too few operands for the comparison returns `BAD_EXP` with nothing changed. |
| DcParse.ParseCondExtends | src/dc/parse.c:98-114 | Whatever the outcome, the parse is only extended, with the string pool and the function count kept. |
| DcParse.ParseCondEmits | src/dc/parse.c:98-114 | It succeeds if and only if the balance allows the comparison and `EXEC_COND`, a name follows, and after `else` a second name follows. It then appends the comparison, `EXEC_COND` and the true register. Next comes either the else register or exactly one `STREND`. |
| DcParse.ParseNumber | src/dc/parse.c:149-163 | `NEG` not followed by `NUMBER` returns `BAD_TOKEN` with only the lexer moved. |
| DcParse.ParseNumberExtends | src/dc/parse.c:149-163 | Whatever the outcome, the parse is only extended, with the string pool and the function count kept. On success the constants grow by exactly the number's text. |
| DcParse.ParseNumberSucceeds | src/dc/parse.c:149-163 | It succeeds if and only if `NEG` is followed by a number, the constant pool can grow (in this model a vector fails to grow only when it already holds `SIZE_MAX` elements; see "Left out"), and, for `NEG`, the balance raised by one allows `NEG`. |
| DcParse.NumberCore | src/dc/parse.c:157 | `bc_parse_number` counts into `nbraces`. The balance goes up by exactly one, `NUM` and the constant's index are appended, and the lexer is kept. |
| DcParse.ParseNumberEmits | src/dc/parse.c:149-163 | On success: `NUM`, the index of the new constant and, for `NEG`, the `NEG` opcode are appended. The balance is `nbraces + 1`, then adjusted by `NEG`, and the lexer ends just past the number. |
| DcParse.ParseRead | src/dc/parse.c:165-171 | Under `NOREAD` it returns `EXEC_REC_READ` with nothing changed. Otherwise it succeeds if and only if the balance allows `READ`, and then appends exactly `READ` and advances. |
| DcParse.ParseToken | src/dc/parse.c:116-219 | The status is one of the five the rules produce. An unhandled token (EOF, name, `else`, any other kind) returns `BAD_TOKEN` with nothing changed. |
| DcParse.ParseTokenDispatch | src/dc/parse.c:122-213 | Which rule each token kind selects. For the nine register and store tokens the contract names the opcode, whether a register name follows and whether `SWAP ASSIGN POP` follows: COLON gives ARRAY_ELEM with name and store, SCOLON ARRAY_ELEM with name, OP_ASSIGN VAR with name and store, STORE_PUSH PUSH_TO_VAR with name, LOAD LOAD with name, LOAD_POP PUSH_VAR with name, and STORE_IBASE, STORE_SCALE and STORE_OBASE give IBASE, SCALE and OBASE with store and no name. |
| DcParse.ParseTokenColonEmits | src/dc/parse.c:135-141 | An array-element store succeeds if and only if the balance walk over `ARRAY_ELEM SWAP ASSIGN POP` succeeds and a register name follows. It then emits `ARRAY_ELEM`, the name with its `STREND`, and `SWAP ASSIGN POP`, ending at the walk's balance. |
| DcExpr.ParseTokenExtends | src/dc/parse.c:116-219 | Whatever the outcome, a token rule only extends the parse. Unless it ran out of memory, it keeps string i owning function `i + BC_PROG_REQ_FUNCS`. |
| DcExpr.Loop | src/dc/parse.c:229-235 | The loop ends successfully only at EOF and never moves backwards in the input. The status is one of the five the rules produce. |
| DcExpr.LoopExtends | src/dc/parse.c:229-235 | Whatever the outcome, the loop only extends the parse and, unless out of memory, keeps strings and functions in step. |
| DcExpr.LoopTableStep | src/dc/parse.c:229-233 | For a token the table maps to an opcode, the loop balance-checks that opcode. A refusal stops the loop with `BAD_EXP` and nothing changed. Otherwise exactly that opcode is appended and the loop continues from the next token. |
| DcExpr.LoopRule | src/dc/parse.c:229-234 | For any token the table leaves to `dc_parse_token`, the loop applies that rule. The rule's failure is the loop's result, state included. On success the loop continues from where the rule stopped and only extends what the rule produced. |
| DcExpr.LoopString | src/dc/parse.c:143-147 | A string literal met by the loop is parsed. When its rule succeeds, whatever the loop does afterwards keeps the literal in the string pool and `STR` with its pool index in the code. |
| DcExpr.LoopTableOnly | src/dc/parse.c:229-233 | On input made only of tokens the table maps to opcodes, the loop succeeds if and only if the static balance walk over those opcodes does. It then appends them in order and ends at the walk's balance; otherwise it fails with `BAD_EXP`. |
| DcExpr.ParseExpr | src/dc/parse.c:221-241 | It succeeds only at EOF. The status is one of the five the rules produce. |
| DcExpr.ParseExprModes | src/dc/parse.c:221-241 | On any input: without `NOCALL` the expression is the loop itself. Under `NOCALL` the loop starts from the result-stack depth. The expression then succeeds if and only if the loop succeeds and its final balance allows `POP_EXEC`, and on success exactly `POP_EXEC` is appended after the loop's output. A failing loop is the expression's failure; a refused `POP_EXEC` is `BAD_EXP` with the loop's state kept. |
| DcExpr.ParseExprExtends | src/dc/parse.c:221-241 | Whatever the outcome, an expression only extends the parse and, unless out of memory, keeps strings and functions in step. |
| DcExpr.ParseExprTableOnly | src/dc/parse.c:227-238 | On table-only input the expression succeeds if and only if the walk over its opcodes, plus `POP_EXEC` under `NOCALL`, succeeds. Under `NOCALL` the walk starts from the result-stack depth. It then appends exactly those opcodes. |
| DcExpr.ParseInput | src/dc/parse.c:243-255 | Input already at EOF is not parsed: the result is a clean state, the hook's verdict on `LEX_EOF` and, in main, the program unchanged. Otherwise one expression is parsed without flags. If it succeeds and no interrupt is pending, the result is exactly that expression's result. If it fails or an interrupt is pending, the result is exactly `bc_parse_reset` applied to the state the expression left and its status. So the state is clean, the status is the hook's verdict on the expression's status, and every function is kept except a non-main active one, which is abandoned. It always stops at EOF in the same input. |
| DcExpr.ParseInputKeepsCommitted | src/dc/parse.c:243-255 | Parsing, including the reset after an error or an interrupt, keeps committed state. Functions other than the active one are unchanged, and constant and string pool entries are never altered or removed. In main the code only ever grows. |
| DcExpr.ParseInputKeepsOwnership | src/dc/parse.c:243-255 | Across the entry point, reset included, string i still owns function `i + BC_PROG_REQ_FUNCS` under its padded decimal name, which the assert at src/dc/parse.c:71 relies on for the next line. The only exception is an allocation failure inside the expression. |
| DcExpr.ResetKeepsOwnership | src/parse.c:108-130 | Reset keeps strings and functions in step: the abandoned function keeps its slot and its name. |
| DcScenarios.LoopNumber | src/dc/parse.c:149-163 | A number token in the loop appends its text as a constant and emits `NUM` and its index. The balance goes up by one and the loop continues from the next token. |
| DcScenarios.SumOfTwo | src/dc/parse.c:229-235 | `3 4 +` with an empty constant pool gives constants `"3"`, `"4"` and code `NUM 0 NUM 1 1 ADD`, leaving one open result. |
| DcScenarios.CondRegister | src/dc/parse.c:98-114 | `2 3 >a` emits both numbers, then `REL_GT EXEC_COND 'a' STREND STREND`, the last byte marking the missing else branch. The balance returns to 0. |
| DcScenarios.CondWithoutOperands | src/dc/parse.c:243-255 | A comparison with too few open operands fails with `BAD_EXP` before emitting anything. In main, the reset then leaves the program exactly as it was. |

## Left out

- Lexing (`bc_lex_next`, `dc_lex_token`, `bc_lex_text`) is not part of this model. The lexer is a finished token sequence, and moving past the end yields EOF. Lexer errors are not modelled, so every `bc_lex_next` call succeeds.
- `bc_parse_text` is left out. It depends on `BC_PARSE_CAN_EXEC`, which is defined outside this model.
- `bc_parse_free`, `free` and ownership transfer of strings are memory management with no observable effect in a value model.
- `src/args.c` (command-line handling, file reading, `exit`) is process plumbing and is not part of this model.
- `malloc`/`strdup` failures and `sprintf` returning `IO_ERR` (src/dc/parse.c:49, 61-64, src/parse.c:77) are not modelled. The only allocation failure modelled is a pool or function-table vector that cannot grow.
- Pushes onto a code buffer (`bc_parse_push`) are taken to succeed.
- `bc_program_addFunc` is in a file not part of this model. It is modelled as appending a fresh function, so the lookup that replaces an existing function of the same name is not modelled.
- `Codec.ReadIndex` and `Codec.ReadName` are reference decoders for the formats the executor reads. The executor's own decoders are in files not part of this model, so the round trips are stated against these reference decoders.
- `bc_program_reset` is a parameter `hook: Status -> Status`. The executor's state it clears is outside this model.
- The interrupt flag `bcg.signe` is a boolean input to `DcExpr.ParseInput`. Under `NOCALL` the result-stack depth `prog->results.len` is an input to `DcExpr.ParseExpr`.
- Opcode values, `BC_PARSE_STREND`, `BC_PROG_REQ_FUNCS`, `DC_PARSE_BUF_LEN` and the contents of the arity and token tables are left uninterpreted.
- Token kinds other than those the dc parser names are represented by their enumeration number. The relational kinds are assumed to be consecutive from `BC_LEX_OP_REL_EQ` in the order EQ, LE, GE, NE, LT, GT, as the opcode arithmetic at src/dc/parse.c:131 requires.
- `DcParse.ParseToken` dispatches on the current token, which is always the `t` that `dc_parse_expr` passes in.
- `size_t` is taken as 64 bits (LP64), and `unsigned long` as equally wide. So the shift `(idx & (unsigned long) ~UCHAR_MAX) >> 8` at src/parse.c:62 is division by 256 in `Codec.EncodeIndex`. On an LLP64 target the 32-bit mask would also clear the upper half of `idx`, and that case is not modelled.
- Allocation failure of `bc_vec_push` is modelled only as a vector that already holds `SIZE_MAX` elements and cannot grow. A `realloc` failure below that size is not modelled. So the "succeeds if and only if" statements for the pools and the function table hold only under this abstraction.
- DcExpr.ParseTokenExtends: keeping strings and functions in step is stated only when the status is not `ALLOC_ERR`. If `bc_program_addFunc` fails after the string was pushed (src/dc/parse.c:67-68), the string pool is one ahead of the function table. That failure is fatal to the session.
- DcExpr.LoopExtends: the string/function correspondence is stated only for outcomes other than `ALLOC_ERR`, for the same reason.
- DcExpr.ParseExprExtends: the string/function correspondence is stated only for outcomes other than `ALLOC_ERR`, for the same reason.

## Notes on the code

- `dc_parse_parse` resets the parser whenever the status is nonzero (src/dc/parse.c:249-252). That includes `LEX_EOF` for an input that is already at its end, so even the normal end of input goes through `bc_program_reset`. `DcExpr.ParseInput` follows this.
- A rule can fail after emitting part of its bytes. For example, `dc_parse_mem` fails on a missing register after pushing its opcode (src/dc/parse.c:86-87). Reset empties only a non-main function (src/parse.c:110), so in main those bytes remain. `DcExpr.ParseInputKeepsCommitted` therefore states only that main's code grows. "Nothing changed" is proved where the code returns before writing (`DcParse.ParseInst`, `DcScenarios.CondWithoutOperands`).
- Every opcode the dc parser emits through `dc_parse_inst` goes through the balance check, not only conditional and execution opcodes (src/dc/parse.c:34-36). Numbers raise the balance through the `nexs` pointer of `bc_parse_number`, which `dc_parse_token` points at `nbraces` (src/dc/parse.c:157).

=== FILE: codec.dfy ===
/**
 * The two inline operand encodings of the instruction stream: a pool index
 * (`bc_parse_pushIndex`) and a register name (`bc_parse_pushName`), each with
 * a reference decoder for its format. The executor's own decoders are not
 * part of this model.
 */
module Codec {
  import opened CTypes

  /** `BC_PARSE_STREND`, the byte that ends an inline name. Its value is set in
      a header outside this model, so it is left uninterpreted. */
  const STREND: Byte

  // ---------------------------------------------------------------------------
  // Pool indices
  // ---------------------------------------------------------------------------

  function Pow256(k: nat): (r: nat)
    ensures r >= 1
  {
    if k == 0 then 1 else 256 * Pow256(k - 1)
  }

  lemma Pow256Size()
    ensures Pow256(SIZE_T_BYTES) == SIZE_MOD
  {
  }

  /** The little-endian base-256 digits of `n`, least significant first, with
      no trailing zero digit: the bytes `nums[0..amt)` the encoder collects. */
  function Digits(n: nat): (d: seq<Byte>)
    ensures d == [] <==> n == 0
    ensures d != [] ==> d[|d| - 1] != 0
    decreases n
  {
    if n == 0 then [] else [n % 256] + Digits(n / 256)
  }

  /** The number a little-endian byte string denotes: the sum of `b[k] * 256^k`. */
  function ValueLE(s: seq<Byte>): nat
  {
    if s == [] then 0 else s[0] + 256 * ValueLE(s[1..])
  }

  /** Reading the digits back yields the number. */
  lemma {:induction false} DigitsValue(n: nat)
    ensures ValueLE(Digits(n)) == n
    decreases n
  {
    if n != 0 {
      DigitsValue(n / 256);
      assert Digits(n)[1..] == Digits(n / 256);
    }
  }

  /** Conversely, every byte string without a trailing zero byte is the digit
      string of the number it denotes. */
  lemma {:induction false} ValueDigits(s: seq<Byte>)
    requires s == [] || s[|s| - 1] != 0
    ensures Digits(ValueLE(s)) == s
  {
    if s != [] {
      var w := ValueLE(s[1..]);
      ValueDigits(s[1..]);
      var v := ValueLE(s);
      assert v == s[0] + 256 * w;
      assert v % 256 == s[0] && v / 256 == w;
      if s[1..] == [] {
        assert v == s[0] && v != 0;
      } else {
        assert w != 0;
      }
    }
  }

  /** `n` has exactly as many digits as its magnitude says: `256^(k-1) <= n < 256^k`
      for `k` digits. */
  lemma {:induction false} DigitsBound(n: nat)
    ensures n < Pow256(|Digits(n)|)
    ensures n != 0 ==> Pow256(|Digits(n)| - 1) <= n
    decreases n
  {
    if n != 0 {
      var q := n / 256;
      DigitsBound(q);
      assert |Digits(n)| == 1 + |Digits(q)|;
      assert n == 256 * q + n % 256;
      assert Pow256(|Digits(n)|) == 256 * Pow256(|Digits(q)|);
      if q != 0 {
        assert Pow256(|Digits(q)|) == 256 * Pow256(|Digits(q)| - 1);
      }
    }
  }

  /** A `size_t` has at most `sizeof(size_t)` digits, so the encoder's
      `nums[sizeof(size_t)]` buffer is never overrun. */
  lemma DigitsFitSizeT(n: SizeT)
    ensures |Digits(n)| <= SIZE_T_BYTES
  {
    var d := Digits(n);
    DigitsBound(n);
    if |d| > SIZE_T_BYTES {
      Pow256Monotone(SIZE_T_BYTES, |d| - 1);
      Pow256Size();
      assert false;
    }
  }

  lemma {:induction false} Pow256Monotone(j: nat, k: nat)
    requires j <= k
    ensures Pow256(j) <= Pow256(k)
    decreases k
  {
    if j < k {
      Pow256Monotone(j, k - 1);
    }
  }

  /** The bytes `bc_parse_pushIndex(idx)` appends: the digit count `amt`, then
      the `amt` digits. */
  function IndexBytes(idx: SizeT): (b: seq<Byte>)
    ensures 1 <= |b| <= 1 + SIZE_T_BYTES
    ensures b[0] == |b| - 1
    ensures idx == 0 <==> b == [0]
    ensures |b| > 1 ==> b[|b| - 1] != 0
  {
    DigitsFitSizeT(idx);
    [|Digits(idx)|] + Digits(idx)
  }

  /** A reference decoder for an index at the front of `s`: the value and the
      number of bytes it occupies, or `None` when `s` is too short. */
  function ReadIndex(s: seq<Byte>): Option<(nat, nat)>
  {
    if |s| == 0 || |s| < 1 + s[0] as int then None
    else Some((ValueLE(s[1..1 + s[0] as int]), 1 + s[0] as int))
  }

  /** Round trip: whatever follows the encoded index, it reads back as `idx`
      and occupies exactly the encoded bytes. */
  lemma IndexRoundTrip(idx: SizeT, rest: seq<Byte>)
    ensures ReadIndex(IndexBytes(idx) + rest) == Some((idx, |IndexBytes(idx)|))
  {
    var b := IndexBytes(idx);
    assert (b + rest)[1..1 + b[0]] == Digits(idx);
    DigitsValue(idx);
  }

  /** The other direction: a canonical encoding (no trailing zero digit, at most
      `sizeof(size_t)` digits) is the encoding of the `size_t` it reads as. */
  lemma ReadIndexCanonical(s: seq<Byte>)
    requires ReadIndex(s).Some?
    requires ReadIndex(s).value.1 <= 1 + SIZE_T_BYTES
    requires ReadIndex(s).value.1 == 1 || s[ReadIndex(s).value.1 - 1] != 0
    ensures ReadIndex(s).value.0 < SIZE_MOD
    ensures IndexBytes(ReadIndex(s).value.0) == s[..ReadIndex(s).value.1]
  {
    var k := ReadIndex(s).value.1;
    var payload := s[1..k];
    if payload != [] {
      assert payload[|payload| - 1] == s[k - 1];
    }
    ValueDigits(payload);
    var v := ValueLE(payload);
    assert Digits(v) == payload;
    DigitsBound(v);
    Pow256Monotone(|payload|, SIZE_T_BYTES);
    Pow256Size();
    assert v < SIZE_MOD;
    assert s[..k] == [s[0]] + payload;
  }

  /** The encoder's loop invariant survives one turn: the lowest digit is
      stored at `nums[amt]`, within the buffer, and the value shifted right by
      eight bits holds the remaining digits. */
  lemma EncodeStep(idx0: nat, idx: nat, amt: nat, nums: seq<Byte>)
    requires amt <= |nums| == SIZE_T_BYTES && |Digits(idx0)| <= SIZE_T_BYTES
    requires idx != 0 && Digits(idx0) == nums[..amt] + Digits(idx)
    ensures amt < SIZE_T_BYTES
    ensures Digits(idx0) == nums[amt := idx % 256][..amt + 1] + Digits(idx / 256)
  {
    var x: Byte := idx % 256;
    var pre := nums[..amt];
    var rest := Digits(idx / 256);
    assert Digits(idx) == [x] + rest;
    assert |Digits(idx0)| == amt + 1 + |rest|;
    var after := nums[amt := x];
    assert after[..amt + 1] == pre + [x] by {
      forall i | 0 <= i < amt + 1
        ensures after[i] == (pre + [x])[i]
      {
      }
    }
    assert Digits(idx0) == pre + ([x] + rest);
    SeqAssoc(pre, [x], rest);
  }

  lemma SeqAssoc(a: seq<Byte>, b: seq<Byte>, c: seq<Byte>)
    ensures a + (b + c) == (a + b) + c
  {
  }

  /** `bc_parse_pushIndex` as the C loop writes it: the digits are collected
      into the fixed buffer `nums[sizeof(size_t)]`, the count in `amt`.
      Clearing the low byte and shifting right by eight bits is division by 256. */
  method EncodeIndex(idx0: SizeT) returns (bytes: seq<Byte>)
    ensures bytes == IndexBytes(idx0)
  {
    var nums: seq<Byte> := [0, 0, 0, 0, 0, 0, 0, 0];
    var amt: nat := 0;
    var idx: nat := idx0;
    DigitsFitSizeT(idx0);
    while idx != 0
      invariant amt <= |nums| == SIZE_T_BYTES && |Digits(idx0)| <= SIZE_T_BYTES
      invariant Digits(idx0) == nums[..amt] + Digits(idx)
      decreases idx
    {
      EncodeStep(idx0, idx, amt, nums);
      nums := nums[amt := idx % 256];
      idx := idx / 256;
      amt := amt + 1;
    }
    EncodeDone(idx0, amt, nums);
    bytes := [amt] + nums[..amt];
  }

  /** When the value is used up, the buffer holds exactly the digits. */
  lemma EncodeDone(idx0: SizeT, amt: nat, nums: seq<Byte>)
    requires amt <= |nums| && Digits(idx0) == nums[..amt] + Digits(0)
    ensures [amt] + nums[..amt] == IndexBytes(idx0)
  {
    assert nums[..amt] + [] == nums[..amt];
  }

  // ---------------------------------------------------------------------------
  // Inline names
  // ---------------------------------------------------------------------------

  /** The bytes `bc_parse_pushName(name)` appends: the name, then one `STREND`. */
  function NameBytes(name: CStr): (b: seq<Byte>)
    ensures |b| == |name| + 1
    ensures b[|name|] == STREND
  {
    name + [STREND]
  }

  /** A reference decoder for an inline name at the front of `s`: the bytes
      before the first `STREND` and the count consumed including it. */
  function ReadName(s: seq<Byte>): (r: Option<(seq<Byte>, nat)>)
    ensures r.Some? ==> r.value.1 == |r.value.0| + 1 <= |s|
    ensures r.Some? ==> s[..|r.value.0|] == r.value.0 && s[|r.value.0|] == STREND
    ensures r.Some? ==> STREND !in r.value.0
    ensures r.None? <==> STREND !in s
  {
    if s == [] then None
    else if s[0] == STREND then Some(([], 1))
    else match ReadName(s[1..])
      case None => None
      case Some((n, k)) => Some(([s[0]] + n, k + 1))
  }

  /** Round trip: a name without the terminator byte is read back whole. */
  lemma {:induction false} NameRoundTrip(name: CStr, rest: seq<Byte>)
    requires STREND !in name
    ensures ReadName(NameBytes(name) + rest) == Some((name, |name| + 1))
  {
    if name != [] {
      var tail: CStr := name[1..];
      assert name[0] in name;
      NameRoundTrip(tail, rest);
      assert (NameBytes(name) + rest)[1..] == NameBytes(tail) + rest;
      assert [name[0]] + tail == name;
    }
  }

  /** The condition is also necessary: a name that contains the terminator is
      cut short when read back. */
  lemma NameRecoveredIff(name: CStr, rest: seq<Byte>)
    ensures ReadName(NameBytes(name) + rest) == Some((name, |name| + 1)) <==> STREND !in name
  {
    if STREND !in name {
      NameRoundTrip(name, rest);
    }
  }
}

=== FILE: ctypes.dfy ===
/**
 * The C machine types the parser works with, made explicit: bytes, `size_t`
 * on an LP64 target (eight bytes), its wrap-around arithmetic, NUL-free C
 * strings and the growth limit of a `BcVec`.
 */
module CTypes {

  /** An `unsigned char`: one byte of a code buffer. */
  type Byte = x: int | 0 <= x < 256

  /** `sizeof(size_t)` on the LP64 targets the calculator is built for. */
  const SIZE_T_BYTES: nat := 8

  /** 2^64: `size_t` arithmetic is taken modulo this value. */
  const SIZE_MOD: int := 0x1_0000_0000_0000_0000

  /** `SIZE_MAX`, the largest length a vector can reach. */
  const SIZE_MAX: int := SIZE_MOD - 1

  /** A `size_t` value. */
  type SizeT = x: int | 0 <= x < SIZE_MOD

  /** A C string, without its terminating NUL: it contains no zero byte. */
  type CStr = s: seq<Byte> | forall i | 0 <= i < |s| :: s[i] != 0

  datatype Option<+T> = None | Some(value: T)

  /** Unsigned wrap-around: the `size_t` value that C arithmetic yields for the
      mathematical result `x`. */
  function Wrap(x: int): (r: SizeT)
    ensures (x - r) % SIZE_MOD == 0
    ensures 0 <= x < SIZE_MOD ==> r == x
  {
    x % SIZE_MOD
  }

  /** `bc_vec_push`: a vector already holding `SIZE_MAX` elements cannot grow,
      and the push reports an allocation failure (`None`). */
  function VecPush<T>(v: seq<T>, x: T): (r: Option<seq<T>>)
    ensures r.Some? <==> |v| < SIZE_MAX
    ensures r.Some? ==> |r.value| == |v| + 1 && r.value[..|v|] == v && r.value[|v|] == x
  {
    if |v| < SIZE_MAX then Some(v + [x]) else None
  }
}

=== FILE: dc_expr.dfy ===
/**
 * The dc expression loop and entry point, src/dc/parse.c: `dc_parse_expr`
 * runs token after token, taking each either straight through the token
 * table or through `dc_parse_token`, and `dc_parse_parse` resets the parser
 * after a failure or an interrupt.
 */
module DcExpr {
  import opened CTypes
  import opened Codec
  import opened Lex
  import opened Prog
  import opened Parse
  import opened DcName
  import opened DcParse

  /** An extension that leaves the strings and the function count alone
      keeps strings and functions in step. */
  lemma OwnershipKept(a: Parser, b: Parser)
    requires StringsOwnFuncs(a.prog) && Extends(a, b) && StringsKept(a, b)
    ensures StringsOwnFuncs(b.prog)
  {
    forall i | 0 <= i < |b.prog.strs|
      ensures b.prog.fns[i + REQ_FUNCS].name == StringFuncName(i)
    {
      ExtendsKeepsNames(a, b, i + REQ_FUNCS);
    }
  }

  /** Whatever its outcome, a token rule only extends the parse, and unless it
      ran out of memory it keeps strings and functions in step. */
  lemma ParseTokenExtends(st: Parser, fl: Flags)
    requires Valid(st)
    ensures Extends(st, ParseToken(st, fl).st)
    ensures StringsOwnFuncs(st.prog) && ParseToken(st, fl).status != AllocErr ==>
      StringsOwnFuncs(ParseToken(st, fl).st.prog)
  {
    ParseTokenDispatch(st, fl);
    var t := st.lex.t.kind;
    var r := ParseToken(st, fl);
    var owns := StringsOwnFuncs(st.prog);
    assert Extends(st, st);
    if MemRule(t).Some? {
      ParseMemExtends(st, MemRule(t).value.0, MemRule(t).value.1, MemRule(t).value.2);
      if owns {
        OwnershipKept(st, r.st);
      }
    } else if t.OpRel? {
      ParseCondExtends(st, RelInst(t.rel));
      if owns {
        OwnershipKept(st, r.st);
      }
    } else if t.Str? {
      ParseStringExtends(st);
      ParseStringSucceeds(st);
      if owns && r.status == Success {
        ParseStringOwnsFunc(st);
      }
    } else if t.Number? || t.Neg? {
      ParseNumberExtends(st, t.Neg?);
      if owns {
        OwnershipKept(st, r.st);
      }
    } else if t.KeyRead? && !fl.noRead && r.status == Success {
      AppendedFacts(st, r.st, [INST_READ]);
      if owns {
        OwnershipKept(st, r.st);
      }
    }
  }

  /** The loop of `dc_parse_expr`: until EOF or a failure, a token the token
      table maps to an opcode is balance-checked and emitted, any other token
      goes to `dc_parse_token`. It succeeds only at EOF. */
  function Loop(st: Parser, fl: Flags): (r: Step)
    requires Valid(st)
    ensures Valid(r.st) && r.st.fidx == st.fidx
    ensures Moves(st.lex, r.st.lex, false)
    ensures r.status == Success ==> r.st.lex.t.kind.Eof?
    ensures r.status.Success? || r.status.BadToken? || r.status.BadExp? || r.status.RecRead? || r.status.AllocErr?
    decreases Remaining(st.lex)
  {
    var t := st.lex.t.kind;
    if t.Eof? then Step(st, Success)
    else if DC_PARSE_INSTS(t) != INST_INVALID then
      var s1 :- ParseInst(st, DC_PARSE_INSTS(t));
      Loop(s1.(lex := Next(s1.lex)), fl)
    else
      var s1 :- ParseToken(st, fl);
      Loop(s1, fl)
  }

  /** Whatever its outcome, the loop only extends the parse, and unless it
      ran out of memory it keeps strings and functions in step. */
  lemma {:induction false} LoopExtends(st: Parser, fl: Flags)
    requires Valid(st)
    ensures Extends(st, Loop(st, fl).st)
    ensures StringsOwnFuncs(st.prog) && Loop(st, fl).status != AllocErr ==>
      StringsOwnFuncs(Loop(st, fl).st.prog)
    decreases Remaining(st.lex)
  {
    var t := st.lex.t.kind;
    assert Extends(st, st);
    if t.Eof? {
      return;
    }
    var s1: Parser;
    if DC_PARSE_INSTS(t) != INST_INVALID {
      var r1 := ParseInst(st, DC_PARSE_INSTS(t));
      if r1.IsFailure() {
        return;
      }
      s1 := r1.st.(lex := Next(r1.st.lex));
      AppendedLex(st, r1.st, [DC_PARSE_INSTS(t)], s1.lex);
      AppendedFacts(st, s1, [DC_PARSE_INSTS(t)]);
      if StringsOwnFuncs(st.prog) {
        OwnershipKept(st, s1);
      }
    } else {
      var r1 := ParseToken(st, fl);
      ParseTokenExtends(st, fl);
      if r1.IsFailure() {
        return;
      }
      s1 := r1.st;
    }
    assert Loop(st, fl) == Loop(s1, fl);
    LoopExtends(s1, fl);
    ExtendsTransitive(st, s1, Loop(s1, fl).st);
  }

  /** A token the token table maps to an opcode: the loop balance-checks
      that opcode; a refusal stops the loop with `BAD_EXP` and nothing
      changed, otherwise the opcode is appended and the loop goes on from
      the next token. */
  lemma LoopTableStep(st: Parser, fl: Flags)
    requires Valid(st) && !st.lex.t.kind.Eof? && DC_PARSE_INSTS(st.lex.t.kind) != INST_INVALID
    ensures
      var inst := DC_PARSE_INSTS(st.lex.t.kind);
      && (st.nbraces < NOPERANDS(inst) ==> Loop(st, fl) == Step(st, BadExp))
      && (st.nbraces >= NOPERANDS(inst) ==>
           var s1 := Push(st, inst).(nbraces := Balance(st.nbraces, inst), lex := Next(st.lex));
           && Appended(st, s1, [inst])
           && Loop(st, fl) == Loop(s1, fl))
  {
    var inst := DC_PARSE_INSTS(st.lex.t.kind);
    if st.nbraces >= NOPERANDS(inst) {
      var s0 := ParseInst(st, inst).st;
      AppendedLex(st, s0, [inst], Next(s0.lex));
    }
  }

  /** A token the token table leaves to `dc_parse_token`: the loop applies
      that rule; its failure is the loop's failure, state included, and on
      success the loop goes on from where the rule stopped, only extending
      what the rule produced. */
  lemma LoopRule(st: Parser, fl: Flags)
    requires Valid(st) && !st.lex.t.kind.Eof? && DC_PARSE_INSTS(st.lex.t.kind) == INST_INVALID
    ensures
      var p := ParseToken(st, fl);
      && (p.status != Success ==> Loop(st, fl) == p)
      && (p.status == Success ==> Loop(st, fl) == Loop(p.st, fl) && Extends(p.st, Loop(st, fl).st))
  {
    var p := ParseToken(st, fl);
    if p.status == Success {
      LoopExtends(p.st, fl);
    }
  }

  /** A string literal met by the loop is parsed: when its rule succeeds,
      whatever the loop does afterwards keeps the literal in the string
      pool and `STR` with its index in the code. */
  lemma LoopString(st: Parser, fl: Flags)
    requires Valid(st) && st.lex.t.kind.Str? && DC_PARSE_INSTS(Str) == INST_INVALID
    requires ParseString(st).status == Success
    ensures
      var r := Loop(st, fl).st;
      var len := |st.prog.strs|;
      && st.prog.strs + [st.lex.t.text] <= r.prog.strs
      && Code(st) + [INST_STR] + IndexBytes(len) <= Code(r)
  {
    ParseTokenDispatch(st, fl);
    LoopRule(st, fl);
    ParseStringEmits(st);
  }

  /** The token kinds the loop will meet: the current one first, up to but
      not including EOF. */
  function Pending(l: Lexer): (ks: seq<TokenKind>)
    ensures forall i | 0 <= i < |ks| :: !ks[i].Eof?
    ensures ks == [] <==> l.t.kind.Eof?
    decreases Remaining(l)
  {
    if l.t.kind.Eof? then [] else [l.t.kind] + Pending(Next(l))
  }

  /** The opcodes the token table gives a sequence of token kinds. */
  function TableInsts(ks: seq<TokenKind>): (insts: seq<Inst>)
    ensures |insts| == |ks|
    ensures forall i | 0 <= i < |ks| :: insts[i] == DC_PARSE_INSTS(ks[i])
  {
    if ks == [] then [] else [DC_PARSE_INSTS(ks[0])] + TableInsts(ks[1..])
  }

  /** Every pending token maps to an opcode through the token table. */
  predicate TableOnly(l: Lexer)
  {
    forall k | k in Pending(l) :: DC_PARSE_INSTS(k) != INST_INVALID
  }

  /** On input made only of tokens the table maps to opcodes, the loop is the
      static balance walk over those opcodes: it succeeds exactly when the
      walk does, emitting the opcodes in order and ending at the walk's
      balance; otherwise it reports `BAD_EXP`. */
  lemma {:induction false} LoopTableOnly(st: Parser, fl: Flags)
    requires Valid(st) && TableOnly(st.lex)
    ensures
      var r := Loop(st, fl);
      var insts := TableInsts(Pending(st.lex));
      && (r.status == Success <==> Walk(st.nbraces, insts).Some?)
      && (r.status != Success ==> r.status == BadExp)
      && (r.status == Success ==> Appended(st, r.st, insts) && Some(r.st.nbraces) == Walk(st.nbraces, insts))
    decreases Remaining(st.lex)
  {
    var t := st.lex.t.kind;
    if t.Eof? {
      AppendedNothing(st, st.lex);
      assert st.(lex := st.lex) == st;
      return;
    }
    var inst := DC_PARSE_INSTS(t);
    var tail := TableInsts(Pending(Next(st.lex)));
    assert TableInsts(Pending(st.lex)) == [inst] + tail;
    WalkCons(st.nbraces, inst, tail);
    var r1 := ParseInst(st, inst);
    if r1.IsFailure() {
      return;
    }
    var s1 := r1.st.(lex := Next(r1.st.lex));
    AppendedLex(st, r1.st, [inst], s1.lex);
    assert TableOnly(s1.lex) by {
      assert Pending(st.lex) == [t] + Pending(s1.lex);
    }
    LoopTableOnly(s1, fl);
    assert Loop(st, fl) == Loop(s1, fl);
    if Loop(s1, fl).status == Success {
      AppendedTransitive(st, s1, Loop(s1, fl).st, [inst], tail);
    }
  }

  /** `dc_parse_expr`: under `BC_PARSE_NOCALL` the balance starts from
      `results`, the number of results the executor holds, and after the
      loop reaches EOF a balance-checked `POP_EXEC` closes the code. */
  function ParseExpr(st: Parser, fl: Flags, results: SizeT): (r: Step)
    requires Valid(st)
    ensures Valid(r.st) && r.st.fidx == st.fidx
    ensures Moves(st.lex, r.st.lex, false)
    ensures r.status == Success ==> r.st.lex.t.kind.Eof?
    ensures r.status.Success? || r.status.BadToken? || r.status.BadExp? || r.status.RecRead? || r.status.AllocErr?
  {
    var s0 := if fl.noCall then st.(nbraces := results) else st;
    var s1 :- Loop(s0, fl);
    if fl.noCall then ParseInst(s1, INST_POP_EXEC) else Step(s1, Success)
  }

  /** The two modes of `dc_parse_expr` on any input. Without
      `BC_PARSE_NOCALL` it is the loop alone. Under it, the loop starts from
      the balance `results`, and once the loop reaches EOF the expression
      succeeds exactly when that balance still allows `POP_EXEC`, which is
      then appended; a failing loop is the expression's failure, and a
      refused `POP_EXEC` is `BAD_EXP` with the loop's state kept. */
  lemma ParseExprModes(st: Parser, fl: Flags, results: SizeT)
    requires Valid(st)
    ensures !fl.noCall ==> ParseExpr(st, fl, results) == Loop(st, fl)
    ensures fl.noCall ==>
      var l := Loop(st.(nbraces := results), fl);
      var r := ParseExpr(st, fl, results);
      && (r.status == Success <==> l.status == Success && l.st.nbraces >= NOPERANDS(INST_POP_EXEC))
      && (l.status != Success ==> r == l)
      && (l.status == Success && r.status != Success ==> r == Step(l.st, BadExp))
      && (r.status == Success ==>
           && Appended(l.st, r.st, [INST_POP_EXEC]) && r.st.lex == l.st.lex
           && r.st.lex.t.kind.Eof?
           && r.st.nbraces == Balance(l.st.nbraces, INST_POP_EXEC))
  {
  }

  /** Whatever its outcome, an expression only extends the parse, and unless
      it ran out of memory it keeps strings and functions in step. */
  lemma ParseExprExtends(st: Parser, fl: Flags, results: SizeT)
    requires Valid(st)
    ensures Extends(st, ParseExpr(st, fl, results).st)
    ensures StringsOwnFuncs(st.prog) && ParseExpr(st, fl, results).status != AllocErr ==>
      StringsOwnFuncs(ParseExpr(st, fl, results).st.prog)
  {
    var s0 := if fl.noCall then st.(nbraces := results) else st;
    assert Extends(st, s0);
    var l := Loop(s0, fl);
    LoopExtends(s0, fl);
    ExtendsTransitive(st, s0, l.st);
    if l.status == Success && fl.noCall {
      var r := ParseInst(l.st, INST_POP_EXEC);
      if r.status == Success {
        AppendedFacts(l.st, r.st, [INST_POP_EXEC]);
        ExtendsTransitive(st, l.st, r.st);
        if StringsOwnFuncs(st.prog) && l.status != AllocErr {
          OwnershipKept(l.st, r.st);
        }
      }
    }
  }

  /** The static walk over one more opcode in front. */
  lemma WalkCons(nb: SizeT, inst: Inst, tail: seq<Inst>)
    ensures Walk(nb, [inst] + tail) ==
      if nb < NOPERANDS(inst) then None else Walk(Balance(nb, inst), tail)
  {
    assert ([inst] + tail)[1..] == tail;
  }

  /** The static walk over `a + b` is the walk over `a` continued over `b`. */
  lemma {:induction false} WalkAppend(nb: SizeT, a: seq<Inst>, b: seq<Inst>)
    ensures Walk(nb, a + b) == if Walk(nb, a).None? then None else Walk(Walk(nb, a).value, b)
    decreases |a|
  {
    if a == [] {
      assert a + b == b;
    } else {
      assert (a + b)[0] == a[0] && (a + b)[1..] == a[1..] + b;
      if nb >= NOPERANDS(a[0]) {
        WalkAppend(Balance(nb, a[0]), a[1..], b);
      }
    }
  }

  /** On input made only of tokens the table maps to opcodes, an expression
      is the static balance walk over those opcodes, followed under
      `BC_PARSE_NOCALL` by `POP_EXEC` and started there from `results`. */
  lemma ParseExprTableOnly(st: Parser, fl: Flags, results: SizeT)
    requires Valid(st) && TableOnly(st.lex)
    ensures
      var r := ParseExpr(st, fl, results);
      var start := if fl.noCall then results else st.nbraces;
      var insts := TableInsts(Pending(st.lex)) + (if fl.noCall then [INST_POP_EXEC] else []);
      && (r.status == Success <==> Walk(start, insts).Some?)
      && (r.status != Success ==> r.status == BadExp)
      && (r.status == Success ==> Appended(st, r.st, insts) && Some(r.st.nbraces) == Walk(start, insts))
  {
    var s0 := if fl.noCall then st.(nbraces := results) else st;
    var body := TableInsts(Pending(st.lex));
    var tail: seq<Inst> := if fl.noCall then [INST_POP_EXEC] else [];
    var start := if fl.noCall then results else st.nbraces;
    LoopTableOnly(s0, fl);
    WalkAppend(start, body, tail);
    var l := Loop(s0, fl);
    if l.status != Success {
      return;
    }
    assert Appended(st, l.st, body) by {
      if fl.noCall {
        EmitFrame(st, body, l.st.lex, results);
      }
    }
    if fl.noCall {
      var r := ParseInst(l.st, INST_POP_EXEC);
      assert [INST_POP_EXEC][1..] == [];
      if r.status == Success {
        AppendedTransitive(st, l.st, r.st, body, tail);
      }
    } else {
      assert body + tail == body;
    }
  }

  /** `dc_parse_parse`: an input already at EOF reports `LEX_EOF`; otherwise
      one expression is parsed with no flags set. After a failure, or when
      the interrupt flag `signe` is set, the parser is reset and the status
      is what the executor's reset hook makes of it. Either way it stops at
      EOF. */
  function ParseInput(st: Parser, signe: bool, hook: Status -> Status): (r: Step)
    requires Valid(st)
    ensures Valid(r.st) && r.st.lex.toks == st.lex.toks
    ensures r.st.lex.t.kind.Eof?
    ensures Clean(r.st) || (r.status == Success && r.st.fidx == st.fidx)
    ensures signe ==> Clean(r.st)
    ensures st.lex.t.kind.Eof? ==> Clean(r.st) && r.status == hook(LexEof)
    ensures st.lex.t.kind.Eof? && st.fidx == MAIN ==> r.st.prog == st.prog
    ensures st.lex.t.kind.Eof? ==> r == Reset(st, LexEof, hook)
    ensures !st.lex.t.kind.Eof? ==>
      var e := ParseExpr(st, Flags(false, false), 0);
      && (e.status == Success && !signe ==> r == e)
      && (e.status != Success || signe ==>
           && Clean(r.st) && r.status == hook(e.status)
           && r.st.prog.consts == e.st.prog.consts && r.st.prog.strs == e.st.prog.strs
           && r == Reset(e.st, e.status, hook))
  {
    var e := if st.lex.t.kind.Eof? then Step(st, LexEof) else ParseExpr(st, Flags(false, false), 0);
    if e.status != Success || signe then Reset(e.st, e.status, hook) else e
  }

  /** Parsing never disturbs a function other than the active one, nor an
      entry already in the constant or string pool; in the main function it
      only ever appends code. A successful parse without interrupt is the
      expression's own result. */
  lemma ParseInputKeepsCommitted(st: Parser, signe: bool, hook: Status -> Status)
    requires Valid(st)
    ensures |st.prog.fns| <= |ParseInput(st, signe, hook).st.prog.fns|
    ensures forall j | 0 <= j < |st.prog.fns| && j != st.fidx ::
      ParseInput(st, signe, hook).st.prog.fns[j] == st.prog.fns[j]
    ensures st.prog.consts <= ParseInput(st, signe, hook).st.prog.consts
    ensures st.prog.strs <= ParseInput(st, signe, hook).st.prog.strs
    ensures st.fidx == MAIN ==> Code(st) <= ParseInput(st, signe, hook).st.prog.fns[MAIN].code
  {
    var e := if st.lex.t.kind.Eof? then Step(st, LexEof) else ParseExpr(st, Flags(false, false), 0);
    if st.lex.t.kind.Eof? {
      assert Extends(st, e.st);
    } else {
      ParseExprExtends(st, Flags(false, false), 0);
    }
    var r := ParseInput(st, signe, hook).st;
    if e.status != Success || signe {
      forall j | 0 <= j < |st.prog.fns| && j != st.fidx
        ensures r.prog.fns[j] == st.prog.fns[j]
      {
        assert e.st.prog.fns[j] == st.prog.fns[j];
      }
    }
  }

  /** Reset keeps strings and functions in step: the abandoned function
      keeps its slot and its name. */
  lemma ResetKeepsOwnership(st: Parser, s: Status, hook: Status -> Status)
    requires Valid(st) && StringsOwnFuncs(st.prog)
    ensures StringsOwnFuncs(Reset(st, s, hook).st.prog)
  {
  }

  /** Line after line, the entry point keeps every string owning the
      function registered for it, which the next string literal relies on;
      reset included. Only an allocation failure inside the expression can
      leave a string without its function. */
  lemma ParseInputKeepsOwnership(st: Parser, signe: bool, hook: Status -> Status)
    requires Valid(st) && StringsOwnFuncs(st.prog)
    ensures st.lex.t.kind.Eof? || ParseExpr(st, Flags(false, false), 0).status != AllocErr ==>
      StringsOwnFuncs(ParseInput(st, signe, hook).st.prog)
  {
    var e := if st.lex.t.kind.Eof? then Step(st, LexEof) else ParseExpr(st, Flags(false, false), 0);
    if !st.lex.t.kind.Eof? {
      ParseExprExtends(st, Flags(false, false), 0);
    }
    if e.status != AllocErr && (e.status != Success || signe) {
      ResetKeepsOwnership(e.st, e.status, hook);
    }
  }
}

=== FILE: dc_name.dfy ===
/**
 * The name under which the dc parser registers the function of a string
 * literal: the literal's string-pool index in decimal, zero-padded to
 * `DC_PARSE_BUF_LEN` characters, as `sprintf(b, "%0*zu", DC_PARSE_BUF_LEN, len)`
 * writes it.
 */
module DcName {
  import opened CTypes

  /** `DC_PARSE_BUF_LEN`; its value is set in a header outside this model. */
  const DC_PARSE_BUF_LEN: nat

  /** The ASCII code of `'0'`. */
  const ZERO: Byte := 48

  predicate IsDigit(b: Byte) {
    ZERO <= b < ZERO + 10
  }

  predicate AllDigits(s: seq<Byte>) {
    forall i | 0 <= i < |s| :: IsDigit(s[i])
  }

  /** `n` in decimal without leading zeros ("0" for zero). */
  function Decimal(n: nat): (s: seq<Byte>)
    ensures |s| >= 1 && AllDigits(s)
    ensures |s| > 1 ==> s[0] != ZERO
  {
    if n < 10 then [ZERO + n] else Decimal(n / 10) + [ZERO + n % 10]
  }

  function Zeros(k: nat): (s: seq<Byte>)
    ensures |s| == k && AllDigits(s)
  {
    if k == 0 then [] else Zeros(k - 1) + [ZERO]
  }

  /** The `%0*zu` conversion: `n` in decimal, left-padded with '0' to `width`. */
  function Padded(n: nat, width: nat): (s: CStr)
    ensures AllDigits(s)
    ensures |s| == if |Decimal(n)| < width then width else |Decimal(n)|
  {
    var d := Decimal(n);
    var s := if |d| < width then Zeros(width - |d|) + d else d;
    assert AllDigits(s);
    s
  }

  /** The name of the function registered for string-pool slot `len`. */
  function StringFuncName(len: nat): CStr
  {
    Padded(len, DC_PARSE_BUF_LEN)
  }

  /** The number a string of decimal digits denotes. */
  function DecimalValue(s: seq<Byte>): nat
    requires AllDigits(s)
  {
    if s == [] then 0 else 10 * DecimalValue(s[..|s| - 1]) + (s[|s| - 1] - ZERO)
  }

  lemma {:induction false} DecimalRoundTrip(n: nat)
    ensures DecimalValue(Decimal(n)) == n
    decreases n
  {
    if n >= 10 {
      DecimalRoundTrip(n / 10);
      var s := Decimal(n);
      assert s[..|s| - 1] == Decimal(n / 10);
    }
  }

  /** Leading zeros do not change the value. */
  lemma {:induction false} LeadingZeros(k: nat, d: seq<Byte>)
    requires AllDigits(d)
    ensures AllDigits(Zeros(k) + d)
    ensures DecimalValue(Zeros(k) + d) == DecimalValue(d)
    decreases |d| + k
  {
    var s := Zeros(k) + d;
    assert AllDigits(s);
    if d == [] {
      assert s == Zeros(k);
      if k > 0 {
        assert s[..|s| - 1] == Zeros(k - 1) + [];
        LeadingZeros(k - 1, []);
      }
    } else {
      assert s[..|s| - 1] == Zeros(k) + d[..|d| - 1];
      LeadingZeros(k, d[..|d| - 1]);
    }
  }

  /** Round trip: the registered name reads back as the pool slot. */
  lemma PaddedRoundTrip(n: nat, width: nat)
    ensures DecimalValue(Padded(n, width)) == n
  {
    var d := Decimal(n);
    DecimalRoundTrip(n);
    if |d| < width {
      LeadingZeros(width - |d|, d);
    }
  }

  /** Distinct string-pool slots get distinct function names, and equal slots
      equal names. */
  lemma StringFuncNamesDistinct(n: nat, m: nat)
    ensures StringFuncName(n) == StringFuncName(m) <==> n == m
  {
    PaddedRoundTrip(n, DC_PARSE_BUF_LEN);
    PaddedRoundTrip(m, DC_PARSE_BUF_LEN);
  }
}

=== FILE: dc_parse.dfy ===
/**
 * The dc (stack/register notation) parser, src/dc/parse.c: each token either
 * maps straight to an opcode through the token table or triggers a small
 * rule (registers, conditional execution, memory/store sequences, string
 * literals, numbers), and a static operand/result balance (`nbraces`) rejects
 * opcodes that would find too few operands.
 */
module DcParse {
  import opened CTypes
  import opened Codec
  import opened Lex
  import opened Prog
  import opened Parse
  import opened DcName

  /** `dc_inst_noperands`, `dc_inst_nresults` and `dc_parse_insts`: tables
      whose contents are set outside this model, so they are uninterpreted. */
  const NOPERANDS: Inst -> Byte
  const NRESULTS: Inst -> Byte
  const DC_PARSE_INSTS: TokenKind -> Inst

  /** The `BC_PARSE_NOREAD` and `BC_PARSE_NOCALL` bits of the flags byte. */
  datatype Flags = Flags(noRead: bool, noCall: bool)

  /** The tail `dc_parse_mem` emits for a store. */
  const STORE_TAIL: seq<Inst> := [INST_SWAP, INST_ASSIGN, INST_POP]

  /** The balance after `inst`: `nbraces -= noperands - nresults` on `size_t`. */
  function Balance(nb: SizeT, inst: Inst): (r: SizeT)
    ensures nb + NRESULTS(inst) < SIZE_MOD && NOPERANDS(inst) <= nb ==>
      r == nb - NOPERANDS(inst) + NRESULTS(inst)
  {
    Wrap(nb - NOPERANDS(inst) + NRESULTS(inst))
  }

  /** The static balance check run over a sequence of opcodes: the final
      balance, or `None` when some opcode finds fewer open operands than it
      needs. */
  function Walk(nb: SizeT, insts: seq<Inst>): Option<SizeT>
    decreases |insts|
  {
    if insts == [] then Some(nb)
    else if nb < NOPERANDS(insts[0]) then None
    else Walk(Balance(nb, insts[0]), insts[1..])
  }

  /** The opcode of a relational token: `t - BC_LEX_OP_REL_EQ + BC_INST_REL_EQ`,
      truncated to the `uint8_t` parameter of `dc_parse_cond`. */
  function RelInst(rel: Rel): Inst
  {
    (INST_REL_EQ + rel.Offset()) % 256
  }

  /** The memory-rule table of `dc_parse_token`: for each register or store
      token, the opcode, whether a register name follows, and whether the
      store tail follows. */
  function MemRule(t: TokenKind): Option<(Inst, bool, bool)>
  {
    match t
    case Colon => Some((INST_ARRAY_ELEM, true, true))
    case Scolon => Some((INST_ARRAY_ELEM, true, false))
    case OpAssign => Some((INST_VAR, true, true))
    case StorePush => Some((INST_PUSH_TO_VAR, true, false))
    case Load => Some((INST_LOAD, true, false))
    case LoadPop => Some((INST_PUSH_VAR, true, false))
    case StoreIbase => Some((INST_IBASE, false, true))
    case StoreScale => Some((INST_SCALE, false, true))
    case StoreObase => Some((INST_OBASE, false, true))
    case _ => None
  }

  /** Token kinds `dc_parse_token` has no rule for. */
  predicate Unhandled(t: TokenKind)
  {
    t.Eof? || t.Name? || t.Else? || t.Other?
  }

  /** `dc_parse_inst`: the balance check. It passes exactly when enough
      operands are open; then `inst` is appended and the balance updated,
      otherwise nothing changes and the result is `BAD_EXP`. */
  function ParseInst(st: Parser, inst: Inst): (r: Step)
    requires Valid(st)
    ensures r.status == Success <==> st.nbraces >= NOPERANDS(inst)
    ensures r.status != Success ==> r == Step(st, BadExp)
    ensures r.status == Success ==>
      && Appended(st, r.st, [inst]) && r.st.lex == st.lex
      && r.st.nbraces == Balance(st.nbraces, inst)
  {
    if st.nbraces >= NOPERANDS(inst) then
      Step(Push(st, inst).(nbraces := Balance(st.nbraces, inst)), Success)
    else
      Step(st, BadExp)
  }

  /** A run of `dc_parse_inst` calls that stops at the first failure: it
      succeeds exactly when the static walk does, and then emits the opcodes
      in order. */
  function ParseInsts(st: Parser, insts: seq<Inst>): (r: Step)
    requires Valid(st)
    ensures Extends(st, r.st) && StringsKept(st, r.st) && r.st.lex == st.lex
    ensures r.status == Success <==> Walk(st.nbraces, insts).Some?
    ensures r.status != Success ==> r.status == BadExp
    ensures r.status == Success ==>
      Appended(st, r.st, insts) && r.st.nbraces == Walk(st.nbraces, insts).value
    decreases |insts|
  {
    if insts == [] then
      AppendedNothing(st, st.lex);
      assert st.(lex := st.lex) == st;
      Step(st, Success)
    else
      var s1 :- ParseInst(st, insts[0]);
      var r := ParseInsts(s1, insts[1..]);
      AppendedFacts(st, s1, [insts[0]]);
      ExtendsTransitive(st, s1, r.st);
      if r.status == Success then
        AppendedTransitive(st, s1, r.st, [insts[0]], insts[1..]);
        assert [insts[0]] + insts[1..] == insts;
        r
      else
        r
  }

  /** `dc_parse_register`: reads one more token; a name is emitted as an
      inline name, anything else is `BAD_TOKEN` with only the lexer moved. */
  function ParseRegister(st: Parser): (r: Step)
    requires Valid(st)
    ensures r.st.lex == Next(st.lex)
    ensures r.status == Success <==> Next(st.lex).t.kind.Name?
    ensures r.status != Success ==> r == Step(st.(lex := Next(st.lex)), BadToken)
    ensures r.status == Success ==>
      Appended(st, r.st, NameBytes(Next(st.lex).t.text)) && r.st.nbraces == st.nbraces
  {
    var l := Next(st.lex);
    if !l.t.kind.Name? then Step(st.(lex := l), BadToken)
    else Step(PushName(st.(lex := l), l.t.text), Success)
  }

  /** The string pool and the function table agree: string `i` owns function
      `i + BC_PROG_REQ_FUNCS`, registered under its zero-padded decimal name. */
  predicate StringsOwnFuncs(prog: Program)
  {
    && |prog.fns| == |prog.strs| + REQ_FUNCS
    && forall i | 0 <= i < |prog.strs| :: prog.fns[i + REQ_FUNCS].name == StringFuncName(i)
  }

  /** `dc_parse_string`: the literal becomes string `len` (the old pool
      length), a function named after `len` is registered at index
      `len + BC_PROG_REQ_FUNCS`, and `STR` with index `len` is emitted. A
      failed balance check leaves everything unchanged. When it succeeds and
      what it emits are stated by `ParseStringSucceeds` and
      `ParseStringEmits`. */
  function ParseString(st: Parser): (r: Step)
    requires Valid(st)
    ensures Valid(r.st) && r.st.fidx == st.fidx
    ensures Moves(st.lex, r.st.lex, r.status == Success)
    ensures r.status.Success? || r.status.BadExp? || r.status.AllocErr?
    ensures st.nbraces < NOPERANDS(INST_STR) ==> r == Step(st, BadExp)
  {
    var len := |st.prog.strs|;
    var s1 :- ParseInst(st, INST_STR);
    var s2 := PushIndex(s1, len);
    match VecPush(s2.prog.strs, st.lex.t.text)
    case None => Step(s2, AllocErr)
    case Some(strs) =>
      var a := AddFunc(s2.(prog := s2.prog.(strs := strs)), StringFuncName(len));
      if a.status != Success then Step(a.st, a.status)
      else Step(a.st.(lex := Next(a.st.lex)), Success)
  }

  /** A string literal succeeds exactly when the balance allows `STR` and both
      the string pool and the function table can grow; past the balance
      check, a failure is an allocation error. */
  lemma ParseStringSucceeds(st: Parser)
    requires Valid(st)
    ensures ParseString(st).status == Success <==>
      st.nbraces >= NOPERANDS(INST_STR) && |st.prog.strs| < SIZE_MAX && |st.prog.fns| < SIZE_MAX
    ensures st.nbraces >= NOPERANDS(INST_STR) && ParseString(st).status != Success ==>
      ParseString(st).status == AllocErr
  {
  }

  /** A string literal only ever extends the parse, whatever its outcome. */
  lemma ParseStringExtends(st: Parser)
    requires Valid(st)
    ensures Extends(st, ParseString(st).st)
  {
    var len := |st.prog.strs|;
    var r1 := ParseInst(st, INST_STR);
    if r1.IsFailure() {
      assert Extends(st, st);
      return;
    }
    var s1 := r1.st;
    var s2 := PushIndex(s1, len);
    AppendedFacts(st, s1, [INST_STR]);
    AppendedFacts(s1, s2, IndexBytes(len));
    ExtendsTransitive(st, s1, s2);
    if |s2.prog.strs| >= SIZE_MAX {
      return;
    }
    var s3 := s2.(prog := s2.prog.(strs := s2.prog.strs + [st.lex.t.text]));
    assert Extends(s2, s3);
    ExtendsTransitive(st, s2, s3);
    var a := AddFunc(s3, StringFuncName(len));
    if a.status != Success {
      return;
    }
    ExtendsTransitive(st, s3, a.st);
    ExtendsLex(st, a.st, Next(a.st.lex));
  }

  /** The layout of a successful string literal: `STR` and the index `len`
      emitted, the text appended to the string pool, and a fresh function
      named after `len` appended to the function table. */
  lemma ParseStringEmits(st: Parser)
    requires Valid(st) && ParseString(st).status == Success
    ensures
      var r := ParseString(st).st;
      var len := |st.prog.strs|;
      && Code(r) == Code(st) + [INST_STR] + IndexBytes(len)
      && r.prog.strs == st.prog.strs + [st.lex.t.text]
      && r.prog.consts == st.prog.consts
      && |r.prog.fns| == |st.prog.fns| + 1
      && r.prog.fns[|st.prog.fns|] == NewFunc(StringFuncName(len))
      && r.nbraces == Balance(st.nbraces, INST_STR)
      && r.lex == Next(st.lex)
  {
    var len := |st.prog.strs|;
    var s1 := ParseInst(st, INST_STR).st;
    var s2 := PushIndex(s1, len);
    AppendedTransitive(st, s1, s2, [INST_STR], IndexBytes(len));
    AppendedFacts(st, s2, [INST_STR] + IndexBytes(len));
  }

  /** A successful string literal keeps strings and functions in step, and
      its own function is the one `dc_parse_string` asserts it is: index
      `len + BC_PROG_REQ_FUNCS`, named after `len`. */
  lemma ParseStringOwnsFunc(st: Parser)
    requires Valid(st) && StringsOwnFuncs(st.prog)
    requires ParseString(st).status == Success
    ensures StringsOwnFuncs(ParseString(st).st.prog)
    ensures ParseString(st).st.prog.fns[|st.prog.strs| + REQ_FUNCS].name == StringFuncName(|st.prog.strs|)
  {
    ParseStringExtends(st);
    ParseStringEmits(st);
    OwnershipGrows(st, ParseString(st).st);
  }

  /** Registering string `|strs|` together with its function, while keeping
      every older function's name, keeps strings and functions in step. */
  lemma OwnershipGrows(a: Parser, b: Parser)
    requires StringsOwnFuncs(a.prog) && Extends(a, b)
    requires |b.prog.strs| == |a.prog.strs| + 1 && |b.prog.fns| == |a.prog.fns| + 1
    requires b.prog.fns[|a.prog.fns|].name == StringFuncName(|a.prog.strs|)
    ensures StringsOwnFuncs(b.prog)
  {
    forall i | 0 <= i < |b.prog.strs|
      ensures b.prog.fns[i + REQ_FUNCS].name == StringFuncName(i)
    {
      if i < |a.prog.strs| {
        ExtendsKeepsNames(a, b, i + REQ_FUNCS);
      }
    }
  }

  /** `b` reads the same input as `a`, never further back, and when `ok`
      it has moved past `a`'s current token (unless that was EOF). */
  predicate Moves(a: Lexer, b: Lexer, ok: bool)
  {
    && b.toks == a.toks
    && Remaining(b) <= Remaining(a)
    && (ok && !a.t.kind.Eof? ==> Remaining(b) < Remaining(a))
  }

  /** `dc_parse_mem`: `inst`, then the register name if `name`, then
      `SWAP ASSIGN POP` if `store`, then one more token. What it emits is
      stated by `ParseMemEmits`. */
  function ParseMem(st: Parser, inst: Inst, name: bool, store: bool): (r: Step)
    requires Valid(st)
    ensures Valid(r.st) && r.st.fidx == st.fidx
    ensures Moves(st.lex, r.st.lex, r.status == Success)
    ensures r.status.Success? || r.status.BadExp? || r.status.BadToken?
    ensures st.nbraces < NOPERANDS(inst) ==> r == Step(st, BadExp)
  {
    var s1 :- ParseInst(st, inst);
    var s2 :- (if name then ParseRegister(s1) else Step(s1, Success));
    var s3 :- ParseInsts(s2, if store then STORE_TAIL else []);
    Step(s3.(lex := Next(s3.lex)), Success)
  }

  /** A memory rule only ever extends the parse, whatever its outcome. */
  lemma ParseMemExtends(st: Parser, inst: Inst, name: bool, store: bool)
    requires Valid(st)
    ensures Extends(st, ParseMem(st, inst, name, store).st)
    ensures StringsKept(st, ParseMem(st, inst, name, store).st)
  {
    var r1 := ParseInst(st, inst);
    if r1.IsFailure() {
      assert Extends(st, st);
      return;
    }
    var s1 := r1.st;
    AppendedFacts(st, s1, [inst]);
    var r2 := if name then ParseRegister(s1) else Step(s1, Success);
    if name {
      if r2.IsFailure() {
        ExtendsLex(st, s1, r2.st.lex);
        return;
      }
      AppendedFacts(s1, r2.st, NameBytes(Next(s1.lex).t.text));
      ExtendsTransitive(st, s1, r2.st);
    }
    var s2 := r2.st;
    var r3 := ParseInsts(s2, if store then STORE_TAIL else []);
    ExtendsTransitive(st, s2, r3.st);
    if r3.IsFailure() {
      return;
    }
    ExtendsLex(st, r3.st, Next(r3.st.lex));
  }

  /** `dc_parse_mem` succeeds exactly when the balance allows `inst` and the
      store tail and, if a register is wanted, the next token is a name; it
      then emits `inst`, the register name, the store tail, in that order. */
  lemma ParseMemEmits(st: Parser, inst: Inst, name: bool, store: bool)
    requires Valid(st)
    ensures
      var r := ParseMem(st, inst, name, store);
      var insts := [inst] + (if store then STORE_TAIL else []);
      var reg := Next(st.lex);
      && (r.status == Success <==> Walk(st.nbraces, insts).Some? && (name ==> reg.t.kind.Name?))
      && (r.status == Success ==>
           && Appended(st, r.st,
                [inst] + (if name then NameBytes(reg.t.text) else []) + (if store then STORE_TAIL else []))
           && r.st.lex == Next(if name then reg else st.lex)
           && Some(r.st.nbraces) == Walk(st.nbraces, insts))
  {
    var tail := if store then STORE_TAIL else [];
    var insts := [inst] + tail;
    assert insts[0] == inst && insts[1..] == tail;
    var r1 := ParseInst(st, inst);
    if r1.IsFailure() {
      return;
    }
    var s1 := r1.st;
    var reg := Next(st.lex);
    var nameBytes := if name then NameBytes(reg.t.text) else [];
    var r2 := if name then ParseRegister(s1) else Step(s1, Success);
    if r2.IsFailure() {
      return;
    }
    var s2 := r2.st;
    if !name {
      AppendedNothing(s1, s1.lex);
      assert s1.(lex := s1.lex) == s1;
    }
    AppendedTransitive(st, s1, s2, [inst], nameBytes);
    var r3 := ParseInsts(s2, tail);
    if r3.IsFailure() {
      return;
    }
    var s3 := r3.st;
    AppendedTransitive(st, s2, s3, [inst] + nameBytes, tail);
    AppendedLex(st, s3, [inst] + nameBytes + tail, Next(s3.lex));
  }

  /** `dc_parse_cond`: the comparison, `EXEC_COND`, the register to run when
      true; then, if the next token is `else`, the register to run otherwise,
      or else a single `STREND` saying there is none. What it emits is stated
      by `ParseCondEmits`. */
  function ParseCond(st: Parser, inst: Inst): (r: Step)
    requires Valid(st)
    ensures Valid(r.st) && r.st.fidx == st.fidx
    ensures Moves(st.lex, r.st.lex, r.status == Success)
    ensures r.status.Success? || r.status.BadExp? || r.status.BadToken?
    ensures st.nbraces < NOPERANDS(inst) ==> r == Step(st, BadExp)
  {
    var s1 :- ParseInsts(st, [inst, INST_EXEC_COND]);
    var s2 :- ParseRegister(s1);
    var s3 := s2.(lex := Next(s2.lex));
    if s3.lex.t.kind.Else? then
      var s4 :- ParseRegister(s3);
      Step(s4.(lex := Next(s4.lex)), Success)
    else
      Step(Push(s3, STREND), Success)
  }

  /** A conditional only ever extends the parse, whatever its outcome. */
  lemma ParseCondExtends(st: Parser, inst: Inst)
    requires Valid(st)
    ensures Extends(st, ParseCond(st, inst).st)
    ensures StringsKept(st, ParseCond(st, inst).st)
  {
    var r1 := ParseInsts(st, [inst, INST_EXEC_COND]);
    if r1.IsFailure() {
      return;
    }
    var s1 := r1.st;
    var r2 := ParseRegister(s1);
    if r2.IsFailure() {
      ExtendsLex(st, s1, r2.st.lex);
      return;
    }
    var s2 := r2.st;
    AppendedFacts(s1, s2, NameBytes(Next(s1.lex).t.text));
    ExtendsTransitive(st, s1, s2);
    var s3 := s2.(lex := Next(s2.lex));
    ExtendsLex(st, s2, s3.lex);
    if s3.lex.t.kind.Else? {
      var r4 := ParseRegister(s3);
      if r4.IsFailure() {
        ExtendsLex(st, s3, r4.st.lex);
        return;
      }
      var s4 := r4.st;
      AppendedFacts(s3, s4, NameBytes(Next(s3.lex).t.text));
      ExtendsTransitive(st, s3, s4);
      ExtendsLex(st, s4, Next(s4.lex));
    } else {
      var s4 := Push(s3, STREND);
      AppendedFacts(s3, s4, [STREND]);
      ExtendsTransitive(st, s3, s4);
    }
  }

  /** The layout of a conditional: it succeeds exactly when the balance allows
      the comparison and `EXEC_COND`, a register name follows, and after
      `else` another name follows; it then emits the two opcodes, the true
      register, and either the else register or one `STREND`. */
  lemma ParseCondEmits(st: Parser, inst: Inst)
    requires Valid(st)
    ensures
      var r := ParseCond(st, inst);
      var yes := Next(st.lex);
      var after := Next(yes);
      var no := Next(after);
      && (r.status == Success <==>
           && Walk(st.nbraces, [inst, INST_EXEC_COND]).Some?
           && yes.t.kind.Name?
           && (after.t.kind.Else? ==> no.t.kind.Name?))
      && (r.status == Success ==>
           && Appended(st, r.st,
                [inst, INST_EXEC_COND] + NameBytes(yes.t.text)
                + (if after.t.kind.Else? then NameBytes(no.t.text) else [STREND]))
           && r.st.lex == (if after.t.kind.Else? then Next(no) else after)
           && Some(r.st.nbraces) == Walk(st.nbraces, [inst, INST_EXEC_COND]))
  {
    var yes := Next(st.lex);
    var r1 := ParseInsts(st, [inst, INST_EXEC_COND]);
    if r1.IsFailure() {
      return;
    }
    var s1 := r1.st;
    var r2 := ParseRegister(s1);
    if r2.IsFailure() {
      return;
    }
    var s2 := r2.st;
    var head := [inst, INST_EXEC_COND] + NameBytes(yes.t.text);
    AppendedTransitive(st, s1, s2, [inst, INST_EXEC_COND], NameBytes(yes.t.text));
    var s3 := s2.(lex := Next(s2.lex));
    AppendedLex(st, s2, head, Next(s2.lex));
    if s3.lex.t.kind.Else? {
      var no := Next(s3.lex);
      var r4 := ParseRegister(s3);
      if r4.IsFailure() {
        return;
      }
      var s4 := r4.st;
      AppendedTransitive(st, s3, s4, head, NameBytes(no.t.text));
      AppendedLex(st, s4, head + NameBytes(no.t.text), Next(s4.lex));
    } else {
      var s4 := Push(s3, STREND);
      AppendedTransitive(st, s3, s4, head, [STREND]);
    }
  }

  /** The number rules of `dc_parse_token`: `NUMBER`, or `NEG` followed by
      `NUMBER`, which also appends `NEG`. The number raises the balance by
      one (`bc_parse_number` counts into `nbraces`). What it emits is stated
      by `ParseNumberEmits`. */
  function ParseNumber(st: Parser, neg: bool): (r: Step)
    requires Valid(st)
    ensures Valid(r.st) && r.st.fidx == st.fidx
    ensures Moves(st.lex, r.st.lex, r.status == Success)
    ensures r.status.Success? || r.status.BadToken? || r.status.BadExp? || r.status.AllocErr?
    ensures neg && !Next(st.lex).t.kind.Number? ==> r == Step(st.(lex := Next(st.lex)), BadToken)
  {
    var s0 := if neg then st.(lex := Next(st.lex)) else st;
    if neg && !s0.lex.t.kind.Number? then Step(s0, BadToken)
    else
      // `prev` is a local of `dc_parse_token` that is never read afterwards.
      var o := EmitNumber(s0, INST_INVALID, s0.nbraces);
      var s1 := o.st.(nbraces := o.nexs);
      if o.status != Success then Step(s1, o.status)
      else
        var s2 :- (if neg then ParseInst(s1, INST_NEG) else Step(s1, Success));
        Step(s2.(lex := Next(s2.lex)), Success)
  }

  /** A number only ever extends the parse, whatever its outcome; when it
      succeeds the constant pool has grown by exactly the number's text. */
  lemma ParseNumberExtends(st: Parser, neg: bool)
    requires Valid(st)
    ensures
      var r := ParseNumber(st, neg);
      var num := if neg then Next(st.lex) else st.lex;
      && Extends(st, r.st) && StringsKept(st, r.st)
      && (r.status == Success ==> r.st.prog.consts == st.prog.consts + [num.t.text])
  {
    var s0 := if neg then st.(lex := Next(st.lex)) else st;
    assert Extends(st, s0) by {
      assert Extends(st, st);
      ExtendsLex(st, st, s0.lex);
      assert st.(lex := s0.lex) == s0;
    }
    if neg && !s0.lex.t.kind.Number? {
      return;
    }
    var o := EmitNumber(s0, INST_INVALID, s0.nbraces);
    if o.status != Success {
      return;
    }
    EmitNumberLayout(s0, INST_INVALID, s0.nbraces);
    ExtendsTransitive(st, s0, o.st);
    var s1 := o.st.(nbraces := o.nexs);
    assert Extends(st, s1);
    var r2 := if neg then ParseInst(s1, INST_NEG) else Step(s1, Success);
    if neg {
      if r2.IsFailure() {
        return;
      }
      AppendedFacts(s1, r2.st, [INST_NEG]);
      ExtendsTransitive(st, s1, r2.st);
    }
    ExtendsLex(st, r2.st, Next(r2.st.lex));
  }

  /** When a number succeeds: exactly when `NEG` is followed by a number, the
      constant pool can grow, and for `NEG` the raised balance allows it. */
  lemma ParseNumberSucceeds(st: Parser, neg: bool)
    requires Valid(st)
    ensures
      var num := if neg then Next(st.lex) else st.lex;
      ParseNumber(st, neg).status == Success <==>
        && (neg ==> num.t.kind.Number?)
        && |st.prog.consts| < SIZE_MAX
        && (neg ==> Wrap(st.nbraces + 1) >= NOPERANDS(INST_NEG))
  {
  }

  /** `NUMBER` and `NEG NUMBER` alike start by appending the number's text to
      the constant pool and emitting `NUM` with its index, moving the balance
      up by one. */
  lemma NumberCore(st: Parser, neg: bool)
    requires Valid(st) && |st.prog.consts| < SIZE_MAX
    ensures
      var s0 := if neg then st.(lex := Next(st.lex)) else st;
      var o := EmitNumber(s0, INST_INVALID, s0.nbraces);
      && o.status == Success
      && Valid(WithConst(st, s0.lex.t.text))
      && Appended(WithConst(st, s0.lex.t.text), o.st.(nbraces := o.nexs),
           [INST_NUM] + IndexBytes(|st.prog.consts|))
      && o.nexs == Wrap(st.nbraces + 1)
      && o.st.lex == s0.lex
  {
    var s0 := if neg then st.(lex := Next(st.lex)) else st;
    var o := EmitNumber(s0, INST_INVALID, s0.nbraces);
    var text := s0.lex.t.text;
    var base := WithConst(st, text);
    var bytes := [INST_NUM] + IndexBytes(|st.prog.consts|);
    assert Appended(base, o.st, bytes) by {
      if neg {
        assert WithConst(s0, text) == base.(lex := s0.lex);
        AppendedRebase(base, s0.lex, o.st, bytes);
      }
    }
    AppendedBalance(base, o.st, bytes, o.nexs);
  }

  /** The layout of a successful number: the token text is appended as the
      next constant, and `NUM`, that constant's index and, for `NEG`, the
      `NEG` opcode are emitted; the balance goes up by one for the number and
      is then adjusted for `NEG`. */
  lemma ParseNumberEmits(st: Parser, neg: bool)
    requires Valid(st) && ParseNumber(st, neg).status == Success
    ensures
      var r := ParseNumber(st, neg);
      var num := if neg then Next(st.lex) else st.lex;
      var up := Wrap(st.nbraces + 1);
      && Valid(WithConst(st, num.t.text))
      && Appended(WithConst(st, num.t.text), r.st,
           [INST_NUM] + IndexBytes(|st.prog.consts|) + (if neg then [INST_NEG] else []))
      && r.st.nbraces == (if neg then Balance(up, INST_NEG) else up)
      && r.st.lex == Next(num)
  {
    NumberCore(st, neg);
    var s0 := if neg then st.(lex := Next(st.lex)) else st;
    var o := EmitNumber(s0, INST_INVALID, s0.nbraces);
    var s1 := o.st.(nbraces := o.nexs);
    var base := WithConst(st, s0.lex.t.text);
    var bytes := [INST_NUM] + IndexBytes(|st.prog.consts|);
    if neg {
      var s2 := ParseInst(s1, INST_NEG).st;
      assert ParseNumber(st, neg).st == s2.(lex := Next(s2.lex));
      AppendedTransitive(base, s1, s2, bytes, [INST_NEG]);
      AppendedLex(base, s2, bytes + [INST_NEG], Next(s2.lex));
    } else {
      assert ParseNumber(st, neg).st == s1.(lex := Next(s1.lex));
      assert bytes + [] == bytes;
      AppendedLex(base, s1, bytes, Next(s1.lex));
    }
  }

  /** `dc_parse_token` for `READ`: refused under `BC_PARSE_NOREAD`, otherwise
      the balance-checked `READ` opcode and one more token. */
  function ParseRead(st: Parser, fl: Flags): (r: Step)
    requires Valid(st)
    ensures Valid(r.st) && r.st.fidx == st.fidx
    ensures Moves(st.lex, r.st.lex, r.status == Success)
    ensures fl.noRead ==> r == Step(st, RecRead)
    ensures !fl.noRead ==>
      && (r.status == Success <==> st.nbraces >= NOPERANDS(INST_READ))
      && (r.status != Success ==> r == Step(st, BadExp))
      && (r.status == Success ==>
           Appended(st, r.st, [INST_READ]) && r.st.lex == Next(st.lex)
           && r.st.nbraces == Balance(st.nbraces, INST_READ))
  {
    if fl.noRead then Step(st, RecRead)
    else
      var s1 :- ParseInst(st, INST_READ);
      AppendedLex(st, s1, [INST_READ], Next(s1.lex));
      Step(s1.(lex := Next(s1.lex)), Success)
  }

  /** `dc_parse_token`: the rules for tokens the token table does not map to
      an opcode, dispatched on the current token through the table `MemRule`
      and the relational, string, number and read rules (stated one by one
      by `ParseTokenDispatch`); any other token is `BAD_TOKEN` with nothing
      changed. */
  function ParseToken(st: Parser, fl: Flags): (r: Step)
    requires Valid(st)
    ensures Valid(r.st) && r.st.fidx == st.fidx
    ensures Moves(st.lex, r.st.lex, r.status == Success)
    ensures r.status.Success? || r.status.BadToken? || r.status.BadExp? || r.status.RecRead? || r.status.AllocErr?
    ensures Unhandled(st.lex.t.kind) ==> r == Step(st, BadToken)
  {
    var t := st.lex.t.kind;
    match MemRule(t)
    case Some((inst, name, store)) => ParseMem(st, inst, name, store)
    case None =>
      match t
      case OpRel(rel) => ParseCond(st, RelInst(rel))
      case Str => ParseString(st)
      case Neg => ParseNumber(st, true)
      case Number => ParseNumber(st, false)
      case KeyRead => ParseRead(st, fl)
      case _ => Step(st, BadToken)
  }

  /** Which rule `dc_parse_token` applies to each token kind: for the
      register and store tokens, the opcode, whether a register name follows
      and whether the store tail follows. */
  lemma ParseTokenDispatch(st: Parser, fl: Flags)
    requires Valid(st)
    ensures var t := st.lex.t.kind; var r := ParseToken(st, fl);
      && (t.Colon? ==> r == ParseMem(st, INST_ARRAY_ELEM, true, true))
      && (t.Scolon? ==> r == ParseMem(st, INST_ARRAY_ELEM, true, false))
      && (t.OpAssign? ==> r == ParseMem(st, INST_VAR, true, true))
      && (t.StorePush? ==> r == ParseMem(st, INST_PUSH_TO_VAR, true, false))
      && (t.Load? ==> r == ParseMem(st, INST_LOAD, true, false))
      && (t.LoadPop? ==> r == ParseMem(st, INST_PUSH_VAR, true, false))
      && (t.StoreIbase? ==> r == ParseMem(st, INST_IBASE, false, true))
      && (t.StoreScale? ==> r == ParseMem(st, INST_SCALE, false, true))
      && (t.StoreObase? ==> r == ParseMem(st, INST_OBASE, false, true))
      && (t.OpRel? ==> r == ParseCond(st, RelInst(t.rel)))
      && (t.Str? ==> r == ParseString(st))
      && (t.Number? ==> r == ParseNumber(st, false))
      && (t.Neg? ==> r == ParseNumber(st, true))
      && (t.KeyRead? ==> r == ParseRead(st, fl))
  {
  }

  /** An array-element store (`:r`): it succeeds exactly when the balance
      allows `ARRAY_ELEM SWAP ASSIGN POP` and a register name follows, and
      then emits `ARRAY_ELEM`, the name and the store tail. */
  lemma ParseTokenColonEmits(st: Parser, fl: Flags)
    requires Valid(st) && st.lex.t.kind.Colon?
    ensures
      var r := ParseToken(st, fl);
      var insts := [INST_ARRAY_ELEM, INST_SWAP, INST_ASSIGN, INST_POP];
      var reg := Next(st.lex);
      && (r.status == Success <==> Walk(st.nbraces, insts).Some? && reg.t.kind.Name?)
      && (r.status == Success ==>
           && Appended(st, r.st, [INST_ARRAY_ELEM] + NameBytes(reg.t.text) + STORE_TAIL)
           && Some(r.st.nbraces) == Walk(st.nbraces, insts))
  {
    ParseTokenDispatch(st, fl);
    ParseMemEmits(st, INST_ARRAY_ELEM, true, true);
    assert [INST_ARRAY_ELEM] + STORE_TAIL == [INST_ARRAY_ELEM, INST_SWAP, INST_ASSIGN, INST_POP];
  }
}

=== FILE: dc_scenarios.dfy ===
/**
 * Worked dc inputs, traced through the model under stated assumptions about
 * the token table and the opcode arities (whose contents are set outside
 * this model): an addition, a conditional register execution, and a
 * conditional with no operands.
 */
module DcScenarios {
  import opened CTypes
  import opened Codec
  import opened Lex
  import opened Prog
  import opened Parse
  import opened DcParse
  import opened DcExpr

  /** The `+` operator's token kind. */
  const PLUS: TokenKind := TokenKind.Other(0)

  /** The table entries an addition relies on: numbers go to the token rules,
      `+` maps to a binary opcode `add` with one result. */
  predicate AddTable(add: Inst)
  {
    && DC_PARSE_INSTS(Number) == INST_INVALID
    && DC_PARSE_INSTS(PLUS) == add && add != INST_INVALID
    && NOPERANDS(add) == 2 && NRESULTS(add) == 1
  }

  /** A number token in the loop, when the constant pool can grow: its text
      becomes the next constant, `NUM` and the index are emitted, one more
      result is open, and the loop continues from there. */
  lemma LoopNumber(st: Parser, fl: Flags)
    requires Valid(st) && st.lex.t.kind.Number? && DC_PARSE_INSTS(Number) == INST_INVALID
    requires |st.prog.consts| < SIZE_MAX
    ensures
      var s1 := ParseNumber(st, false).st;
      && Loop(st, fl) == Loop(s1, fl)
      && Valid(s1) && s1.fidx == st.fidx
      && s1.prog.consts == st.prog.consts + [st.lex.t.text]
      && Code(s1) == Code(st) + [INST_NUM] + IndexBytes(|st.prog.consts|)
      && s1.lex == Next(st.lex) && s1.nbraces == Wrap(st.nbraces + 1)
  {
    ParseTokenDispatch(st, fl);
    ParseNumberSucceeds(st, false);
    ParseNumberEmits(st, false);
    AppendedFacts(WithConst(st, st.lex.t.text), ParseNumber(st, false).st,
      [INST_NUM] + IndexBytes(|st.prog.consts|));
  }

  /** The input `3 4 +` from a fresh parser with an empty constant pool: the
      numbers become constants 0 and 1, the code is `NUM 0 NUM 1 add` with
      each index in its encoded form (`0` is the single byte 0, `1` is the
      length byte 1 and the digit 1), and one result is left open. */
  lemma SumOfTwo(prog: Program, add: Inst, hook: Status -> Status)
    requires AddTable(add)
    requires 0 < |prog.fns| < SIZE_MOD && prog.consts == [] && |prog.strs| < SIZE_MOD
    ensures
      var toks := [Token(Number, [51]), Token(Number, [52]), Token(PLUS, [43])];
      var st := Create(prog, MAIN, Lexer(toks, 1, toks[0]));
      var r := ParseInput(st, false, hook);
      && r.status == Success
      && r.st.prog.consts == [[51], [52]]
      && Code(r.st) == Code(st) + [INST_NUM, 0, INST_NUM, 1, 1, add]
      && r.st.nbraces == 1
  {
    var toks := [Token(Number, [51]), Token(Number, [52]), Token(PLUS, [43])];
    var st := Create(prog, MAIN, Lexer(toks, 1, toks[0]));
    var fl := Flags(false, false);
    LoopNumber(st, fl);
    var s1 := ParseNumber(st, false).st;
    assert s1.lex == Lexer(toks, 2, toks[1]) && s1.prog.consts == [[51]];
    LoopNumber(s1, fl);
    var s2 := ParseNumber(s1, false).st;
    assert s2.lex == Lexer(toks, 3, toks[2]) && s2.nbraces == 2;
    var s3 := AddStep(s2, add, fl);
    assert ParseExpr(st, fl, 0) == Loop(st, fl);
    assert ParseInput(st, false, hook) == Step(s3, Success);
    SumLayout(Code(st), Code(s1), Code(s2), Code(s3), add);
    PoolOfTwo(s1.prog.consts, s2.prog.consts, s1.lex.t.text);
  }

  /** The constant pool of `3 4 +` assembled from its two numbers. */
  lemma PoolOfTwo(p1: seq<CStr>, p2: seq<CStr>, text: CStr)
    requires p1 == [[51]] && text == [52] && p2 == p1 + [text]
    ensures p2 == [[51], [52]]
  {
  }

  /** The code of `3 4 +` assembled from its three steps. */
  lemma SumLayout(c0: seq<Byte>, c1: seq<Byte>, c2: seq<Byte>, c3: seq<Byte>, add: Inst)
    requires c1 == c0 + [INST_NUM] + IndexBytes(0)
    requires c2 == c1 + [INST_NUM] + IndexBytes(1)
    requires c3 == c2 + [add]
    ensures c3 == c0 + [INST_NUM, 0, INST_NUM, 1, 1, add]
  {
    assert IndexBytes(0) == [0];
    assert IndexBytes(1) == [1, 1] by {
      assert Digits(1) == [1] + Digits(0);
    }
  }

  /** The `+` at the end of the input: with two results open it emits `add`,
      leaves one open, and the loop stops at EOF. */
  lemma AddStep(s2: Parser, add: Inst, fl: Flags) returns (s3: Parser)
    requires AddTable(add) && Valid(s2) && s2.nbraces == 2
    requires s2.lex.t.kind == PLUS && s2.lex.idx == |s2.lex.toks|
    ensures Loop(s2, fl) == Step(s3, Success)
    ensures Valid(s3) && s3.fidx == s2.fidx && s3.nbraces == 1
    ensures s3.prog.consts == s2.prog.consts && Code(s3) == Code(s2) + [add]
  {
    var r3 := ParseInst(s2, add);
    s3 := r3.st.(lex := Next(r3.st.lex));
    AppendedLex(s2, r3.st, [add], s3.lex);
    AppendedFacts(s2, s3, [add]);
    assert Loop(s2, fl) == Loop(s3, fl);
  }

  /** The table entries a conditional relies on: numbers and `>` go to the
      token rules, `>` is a binary comparison with one result, and
      `EXEC_COND` consumes the comparison's result. */
  predicate CondTable()
  {
    && DC_PARSE_INSTS(Number) == INST_INVALID
    && DC_PARSE_INSTS(OpRel(Gt)) == INST_INVALID
    && NOPERANDS(RelInst(Gt)) == 2 && NRESULTS(RelInst(Gt)) == 1
    && NOPERANDS(INST_EXEC_COND) == 1 && NRESULTS(INST_EXEC_COND) == 0
  }

  /** `>a` at the end of the input with two results open: the comparison,
      `EXEC_COND`, the register name `a` with its terminator, and one more
      `STREND` for the missing `else`; the balance returns to zero. */
  lemma CondStep(s2: Parser, fl: Flags) returns (s3: Parser)
    requires CondTable() && Valid(s2) && s2.nbraces == 2
    requires s2.lex.t.kind == OpRel(Gt) && s2.lex.idx == |s2.lex.toks| - 1
    requires s2.lex.toks[s2.lex.idx] == Token(Name, [97])
    ensures Loop(s2, fl) == Step(s3, Success)
    ensures Valid(s3) && s3.fidx == s2.fidx && s3.nbraces == 0
    ensures s3.prog.consts == s2.prog.consts
    ensures Code(s3) == Code(s2) + [RelInst(Gt), INST_EXEC_COND, 97, STREND, STREND]
  {
    var inst := RelInst(Gt);
    ParseTokenDispatch(s2, fl);
    ParseCondEmits(s2, inst);
    var yes := Next(s2.lex);
    var after := Next(yes);
    assert yes.t == Token(Name, [97]) && yes.idx == |yes.toks|;
    assert after.t.kind.Eof?;
    CondWalk();
    s3 := ParseCond(s2, inst).st;
    var bytes := [inst, INST_EXEC_COND] + NameBytes([97]) + [STREND];
    AppendedFacts(s2, s3, bytes);
    assert Loop(s2, fl) == Loop(s3, fl);
    CondBytes(Code(s2), bytes, Code(s3));
  }

  /** With two results open, the comparison and `EXEC_COND` pass the balance
      check and leave none. */
  lemma CondWalk()
    requires CondTable()
    ensures Walk(2, [RelInst(Gt), INST_EXEC_COND]) == Some(0)
  {
    assert [RelInst(Gt), INST_EXEC_COND][1..] == [INST_EXEC_COND];
    assert Walk(1, [INST_EXEC_COND]) == Walk(0, []) == Some(0);
  }

  /** The bytes `>a` emits when no `else` follows. */
  lemma CondBytes(c2: seq<Byte>, bytes: seq<Byte>, c3: seq<Byte>)
    requires bytes == [RelInst(Gt), INST_EXEC_COND] + NameBytes([97]) + [STREND]
    requires c3 == c2 + bytes
    ensures c3 == c2 + [RelInst(Gt), INST_EXEC_COND, 97, STREND, STREND]
  {
    assert bytes == [RelInst(Gt), INST_EXEC_COND, 97, STREND, STREND];
  }

  /** The input `2 3 >a` from a fresh parser with an empty constant pool: run
      register `a` if 3 > 2 (dc compares the top of the stack with the one
      below it). The code is `NUM 0 NUM 1` followed by the comparison,
      `EXEC_COND`, the name `a` and two terminators, and the balance is back
      to zero. */
  lemma CondRegister(prog: Program, hook: Status -> Status)
    requires CondTable()
    requires 0 < |prog.fns| < SIZE_MOD && prog.consts == [] && |prog.strs| < SIZE_MOD
    ensures
      var toks := [Token(Number, [50]), Token(Number, [51]), Token(OpRel(Gt), []), Token(Name, [97])];
      var st := Create(prog, MAIN, Lexer(toks, 1, toks[0]));
      var r := ParseInput(st, false, hook);
      && r.status == Success
      && Code(r.st) == Code(st) + [INST_NUM, 0, INST_NUM, 1, 1, RelInst(Gt), INST_EXEC_COND, 97, STREND, STREND]
      && r.st.nbraces == 0
  {
    var toks := [Token(Number, [50]), Token(Number, [51]), Token(OpRel(Gt), []), Token(Name, [97])];
    var st := Create(prog, MAIN, Lexer(toks, 1, toks[0]));
    var fl := Flags(false, false);
    LoopNumber(st, fl);
    var s1 := ParseNumber(st, false).st;
    assert s1.lex == Lexer(toks, 2, toks[1]) && s1.prog.consts == [[50]];
    LoopNumber(s1, fl);
    var s2 := ParseNumber(s1, false).st;
    assert s2.lex == Lexer(toks, 3, toks[2]) && s2.nbraces == 2;
    var s3 := CondStep(s2, fl);
    assert ParseExpr(st, fl, 0) == Loop(st, fl);
    assert ParseInput(st, false, hook) == Step(s3, Success);
    CondLayout(Code(st), Code(s1), Code(s2), Code(s3));
  }

  /** The code of `2 3 >a` assembled from its three steps. */
  lemma CondLayout(c0: seq<Byte>, c1: seq<Byte>, c2: seq<Byte>, c3: seq<Byte>)
    requires c1 == c0 + [INST_NUM] + IndexBytes(0)
    requires c2 == c1 + [INST_NUM] + IndexBytes(1)
    requires c3 == c2 + [RelInst(Gt), INST_EXEC_COND, 97, STREND, STREND]
    ensures c3 == c0 + [INST_NUM, 0, INST_NUM, 1, 1, RelInst(Gt), INST_EXEC_COND, 97, STREND, STREND]
  {
    assert IndexBytes(0) == [0];
    assert IndexBytes(1) == [1, 1] by {
      assert Digits(1) == [1] + Digits(0);
    }
  }

  /** A comparison with fewer results open than it needs is refused with
      `BAD_EXP` before anything is emitted or read; `dc_parse_parse` then
      resets the parser, which in the main function keeps the program as it
      was. */
  lemma CondWithoutOperands(st: Parser, rel: Rel, signe: bool, hook: Status -> Status)
    requires Valid(st) && st.fidx == MAIN
    requires st.lex.t.kind == OpRel(rel) && DC_PARSE_INSTS(OpRel(rel)) == INST_INVALID
    requires st.nbraces < NOPERANDS(RelInst(rel))
    ensures ParseToken(st, Flags(false, false)) == Step(st, BadExp)
    ensures
      var r := ParseInput(st, signe, hook);
      && r.status == hook(BadExp)
      && Clean(r.st)
      && r.st.prog == st.prog
  {
    var fl := Flags(false, false);
    ParseTokenDispatch(st, fl);
    ParseCondEmits(st, RelInst(rel));
    assert Loop(st, fl) == Step(st, BadExp);
    assert ParseExpr(st, fl, 0) == Step(st, BadExp);
  }
}

=== FILE: lex.dfy ===
/**
 * The token source, abstracted: the lexer is a finished token sequence, a
 * cursor into it and the current (lookahead) token. Scanning characters into
 * tokens is not part of this model.
 */
module Lex {
  import opened CTypes

  /** The six relational tokens, in the order `BC_LEX_OP_REL_EQ` ..
      `BC_LEX_OP_REL_GT` that the dc parser's opcode arithmetic relies on. */
  datatype Rel = Eq | Le | Ge | Ne | Lt | Gt {
    /** `t - BC_LEX_OP_REL_EQ` for the token of this relation. */
    function Offset(): (k: nat)
      ensures k < 6
    {
      match this
      case Eq => 0
      case Le => 1
      case Ge => 2
      case Ne => 3
      case Lt => 4
      case Gt => 5
    }
  }

  /** The token kinds (`BcLexType`) the dc parser tells apart by name; every
      other kind is `Other`, distinguished by its enumeration value. */
  datatype TokenKind =
    | Eof
    | Name
    | Number
    | Str
    | Neg
    | Else
    | KeyRead
    | OpRel(rel: Rel)
    | Scolon
    | Colon
    | OpAssign
    | StorePush
    | Load
    | LoadPop
    | StoreIbase
    | StoreScale
    | StoreObase
    | Other(id: nat)

  /** A token: its kind and its text (`t.v.v`: the name, number or string). */
  datatype Token = Token(kind: TokenKind, text: CStr)

  /** `toks` is the input, `idx` the position of the next token to read and
      `t` the current token. */
  datatype Lexer = Lexer(toks: seq<Token>, idx: nat, t: Token)

  /** Input not yet consumed, counting the current token unless it is EOF. */
  function Remaining(l: Lexer): nat
  {
    (if l.idx < |l.toks| then |l.toks| - l.idx else 0) + (if l.t.kind.Eof? then 0 else 1)
  }

  /** `bc_lex_next`: the next token of the input, or EOF once it is used up. */
  function Next(l: Lexer): (r: Lexer)
    ensures r.toks == l.toks
    ensures Remaining(r) <= Remaining(l)
    ensures !l.t.kind.Eof? ==> Remaining(r) < Remaining(l)
    ensures r.t in l.toks || r.t.kind.Eof?
  {
    if l.idx < |l.toks| then l.(idx := l.idx + 1, t := l.toks[l.idx])
    else l.(t := Token(Eof, []))
  }
}

=== FILE: parse.dfy ===
/**
 * The parser state and the emission helpers shared by both front ends
 * (src/parse.c): pushing opcode bytes, pool indices and names into the code
 * buffer of the active function, appending numeric constants, registering
 * functions, and the error-recovery reset.
 */
module Parse {
  import opened CTypes
  import opened Codec
  import opened Lex
  import opened Prog

  /** `BcStatus` values the parsers produce; statuses produced elsewhere (for
      example by the executor's reset hook) are `Other`. */
  datatype Status = Success | AllocErr | LexEof | BadToken | BadExp | RecRead | Other(code: nat)

  /** A pending exit of a loop or `if` (`BcInstPtr`). */
  datatype InstPtr = InstPtr(func: nat, idx: nat, len: nat)

  /** `BcParse`: the lexer, the program, the index of the active function
      (`fidx`; `p->func` is `prog.fns[fidx]`), the bookkeeping stacks, the
      operand/result balance `nbraces` and the `auto_part` flag. */
  datatype Parser = Parser(
    lex: Lexer,
    prog: Program,
    fidx: nat,
    flags: seq<Byte>,
    exits: seq<InstPtr>,
    conds: seq<nat>,
    ops: seq<TokenKind>,
    nbraces: SizeT,
    autoPart: bool)

  /** The parser's standing invariant: the active function exists, every
      vector length is a `size_t`, and `flags` keeps its base entry. */
  predicate Valid(st: Parser)
  {
    && st.fidx < |st.prog.fns|
    && |st.prog.fns| < SIZE_MOD
    && |st.prog.consts| < SIZE_MOD
    && |st.prog.strs| < SIZE_MOD
    && |st.flags| >= 1
  }

  /** The outcome of a parser operation: C mutates the parser in place and
      returns a status, so a failing operation still hands back the state it
      left behind. Used with `:-`, a failure propagates with that state. */
  datatype Step = Step(st: Parser, status: Status) {
    predicate IsFailure() {
      status != Success
    }

    function PropagateFailure(): Step
      requires IsFailure()
    {
      this
    }

    function Extract(): Parser
    {
      st
    }
  }

  /** The code buffer of the active function. */
  function Code(st: Parser): seq<Byte>
    requires Valid(st)
  {
    st.prog.fns[st.fidx].code
  }

  /** Successive `bc_parse_push` calls: `bytes` appended to the active
      function's code. Pushes onto the code buffer are taken to succeed. */
  function Emit(st: Parser, bytes: seq<Byte>): (r: Parser)
    requires Valid(st)
    ensures Valid(r)
  {
    var f := st.prog.fns[st.fidx];
    st.(prog := st.prog.(fns := st.prog.fns[st.fidx := f.(code := f.code + bytes)]))
  }

  /** `b` is `a` after more parsing in the same function: the token input,
      the active function and the bookkeeping stacks are the same; the pools
      and the function table have only grown; every function but the active
      one is untouched, and the active one's code has only been appended to. */
  predicate Extends(a: Parser, b: Parser)
  {
    && Valid(a) && Valid(b)
    && b.fidx == a.fidx
    && b.lex.toks == a.lex.toks
    && b.flags == a.flags && b.exits == a.exits && b.conds == a.conds && b.ops == a.ops
    && b.autoPart == a.autoPart
    && a.prog.consts <= b.prog.consts
    && a.prog.strs <= b.prog.strs
    && |a.prog.fns| <= |b.prog.fns|
    && (forall j | 0 <= j < |a.prog.fns| && j != a.fidx :: b.prog.fns[j] == a.prog.fns[j])
    && a.prog.fns[a.fidx].code <= b.prog.fns[a.fidx].code
    && b.prog.fns[a.fidx] == a.prog.fns[a.fidx].(code := b.prog.fns[a.fidx].code)
  }

  /** Neither the string pool nor the function table changed length, and
      the strings are the same. */
  predicate StringsKept(a: Parser, b: Parser)
  {
    b.prog.strs == a.prog.strs && |b.prog.fns| == |a.prog.fns|
  }

  lemma ExtendsTransitive(a: Parser, b: Parser, c: Parser)
    requires Extends(a, b) && Extends(b, c)
    ensures Extends(a, c)
  {
    forall j | 0 <= j < |a.prog.fns| && j != a.fidx
      ensures c.prog.fns[j] == a.prog.fns[j]
    {
      assert b.prog.fns[j] == a.prog.fns[j];
    }
  }

  /** Moving the lexer keeps `Extends`. */
  lemma ExtendsLex(a: Parser, b: Parser, l: Lexer)
    requires Extends(a, b) && l.toks == b.lex.toks
    ensures Extends(a, b.(lex := l))
  {
  }

  /** Further parsing never renames a function. */
  lemma ExtendsKeepsNames(a: Parser, b: Parser, j: nat)
    requires Extends(a, b) && j < |a.prog.fns|
    ensures b.prog.fns[j].name == a.prog.fns[j].name
  {
    if j == a.fidx {
      assert b.prog.fns[j] == a.prog.fns[j].(code := b.prog.fns[j].code);
    }
  }

  /** `b` is `a` with exactly `bytes` appended to the active function's code
      and nothing else changed but, possibly, the position in the same token
      input and `nbraces`. What this entails is spelled out by
      `AppendedFacts`. */
  predicate Appended(a: Parser, b: Parser, bytes: seq<Byte>)
  {
    && Valid(a)
    && b.lex.toks == a.lex.toks
    && b == Emit(a, bytes).(lex := b.lex, nbraces := b.nbraces)
  }

  /** Two emissions in a row are one emission of both byte strings. */
  lemma EmitEmit(a: Parser, x: seq<Byte>, y: seq<Byte>, l: Lexer, n: SizeT)
    requires Valid(a)
    ensures Emit(Emit(a, x).(lex := l, nbraces := n), y) == Emit(a, x + y).(lex := l, nbraces := n)
  {
    var f := a.prog.fns[a.fidx];
    assert f.code + x + y == f.code + (x + y);
    assert a.prog.fns[a.fidx := f.(code := f.code + x)][a.fidx := f.(code := f.code + x + y)]
        == a.prog.fns[a.fidx := f.(code := f.code + (x + y))];
  }

  /** Emitting does not look at the lexer or the balance. */
  lemma EmitFrame(a: Parser, x: seq<Byte>, l: Lexer, n: SizeT)
    requires Valid(a)
    ensures Emit(a.(lex := l, nbraces := n), x) == Emit(a, x).(lex := l, nbraces := n)
  {
  }

  /** `Appended` does not depend on where the first state's lexer stood. */
  lemma AppendedRebase(a: Parser, l: Lexer, b: Parser, bytes: seq<Byte>)
    requires Valid(a) && l.toks == a.lex.toks && Appended(a.(lex := l), b, bytes)
    ensures Appended(a, b, bytes)
  {
    EmitFrame(a, bytes, l, a.nbraces);
  }

  /** Nor on the balance the second state ends with. */
  lemma AppendedBalance(a: Parser, b: Parser, bytes: seq<Byte>, n: SizeT)
    requires Appended(a, b, bytes)
    ensures Appended(a, b.(nbraces := n), bytes)
  {
  }

  /** What `Appended` entails: further parsing in the same function, the pools
      and the function count unchanged, and the code grown by `bytes`. */
  lemma AppendedFacts(a: Parser, b: Parser, bytes: seq<Byte>)
    requires Appended(a, b, bytes)
    ensures Extends(a, b)
    ensures b.prog.consts == a.prog.consts && b.prog.strs == a.prog.strs
    ensures |b.prog.fns| == |a.prog.fns|
    ensures Code(b) == Code(a) + bytes
    ensures StringsKept(a, b)
  {
  }

  lemma AppendedTransitive(a: Parser, b: Parser, c: Parser, x: seq<Byte>, y: seq<Byte>)
    requires Appended(a, b, x) && Appended(b, c, y)
    ensures Appended(a, c, x + y)
  {
    EmitEmit(a, x, y, b.lex, b.nbraces);
  }

  /** Moving the lexer keeps `Appended`. */
  lemma AppendedLex(a: Parser, b: Parser, x: seq<Byte>, l: Lexer)
    requires Appended(a, b, x) && l.toks == b.lex.toks
    ensures Appended(a, b.(lex := l), x)
  {
  }

  /** A state appends nothing to itself, whatever its lexer. */
  lemma AppendedNothing(a: Parser, l: Lexer)
    requires Valid(a) && l.toks == a.lex.toks
    ensures Appended(a, a.(lex := l), [])
  {
    var f := a.prog.fns[a.fidx];
    assert f.code + [] == f.code;
    assert a.prog.fns[a.fidx := f] == a.prog.fns;
  }

  /** `bc_parse_push`: one opcode byte appended. */
  function Push(st: Parser, b: Byte): (r: Parser)
    requires Valid(st)
    ensures Appended(st, r, [b]) && r.lex == st.lex && r.nbraces == st.nbraces
  {
    Emit(st, [b])
  }

  /** `bc_parse_pushIndex`: the encoded index appended to the code. */
  function PushIndex(st: Parser, idx: SizeT): (r: Parser)
    requires Valid(st)
    ensures Appended(st, r, IndexBytes(idx)) && r.lex == st.lex && r.nbraces == st.nbraces
    ensures |Code(r)| == |Code(st)| + 1 + |Digits(idx)|
  {
    Emit(st, IndexBytes(idx))
  }

  /** The reference decoder, reading from where `bc_parse_pushIndex` started,
      gets the index back and the number of bytes it occupies. */
  lemma PushIndexReadsBack(st: Parser, idx: SizeT)
    requires Valid(st)
    ensures
      var r := PushIndex(st, idx);
      ReadIndex(Code(r)[|Code(st)|..]) == Some((idx, |Code(r)| - |Code(st)|))
  {
    var r := PushIndex(st, idx);
    assert Code(r)[|Code(st)|..] == IndexBytes(idx) + [];
    IndexRoundTrip(idx, []);
  }

  /** `bc_parse_pushName`: the name and its terminator appended to the code. */
  function PushName(st: Parser, name: CStr): (r: Parser)
    requires Valid(st)
    ensures Appended(st, r, NameBytes(name)) && r.lex == st.lex && r.nbraces == st.nbraces
    ensures |Code(r)| == |Code(st)| + |name| + 1
    ensures Code(r)[|Code(st)| + |name|] == STREND
  {
    Emit(st, NameBytes(name))
  }

  /** A name free of the terminator byte is read back whole, terminator
      included, from where `bc_parse_pushName` started; a name holding it is
      not (see `NameRecoveredIff`). */
  lemma PushNameReadsBack(st: Parser, name: CStr)
    requires Valid(st)
    ensures
      var r := PushName(st, name);
      STREND !in name <==> ReadName(Code(r)[|Code(st)|..]) == Some((name, |name| + 1))
  {
    var r := PushName(st, name);
    assert Code(r)[|Code(st)|..] == NameBytes(name) + [];
    NameRecoveredIff(name, []);
  }

  /** The results of `bc_parse_number`, which also writes through its `prev`
      and `nexs` pointers. */
  datatype NumberOut = NumberOut(st: Parser, status: Status, prev: Inst, nexs: SizeT)

  /** `st` with `text` appended to the constant pool. */
  function WithConst(st: Parser, text: CStr): Parser
  {
    st.(prog := st.prog.(consts := st.prog.consts + [text]))
  }

  /** `bc_parse_number`: the current token's text becomes the next constant,
      and `NUM` with that constant's index is emitted; `prev` becomes `NUM`
      and `nexs` counts one more expression. The append to the constant pool
      fails (allocation error, nothing changed) only when the pool cannot
      grow. The layout is spelled out by `EmitNumberLayout`. */
  function EmitNumber(st: Parser, prev: Inst, nexs: SizeT): (r: NumberOut)
    requires Valid(st)
    ensures r.status == Success <==> |st.prog.consts| < SIZE_MAX
    ensures r.status != Success ==> r == NumberOut(st, AllocErr, prev, nexs)
    ensures r.status == Success ==>
      && Valid(WithConst(st, st.lex.t.text))
      && Appended(WithConst(st, st.lex.t.text), r.st, [INST_NUM] + IndexBytes(|st.prog.consts|))
      && r.st.lex == st.lex && r.st.nbraces == st.nbraces
      && r.prev == INST_NUM
      && r.nexs == Wrap(nexs + 1)
  {
    var idx := |st.prog.consts|;
    match VecPush(st.prog.consts, st.lex.t.text)
    case None => NumberOut(st, AllocErr, prev, nexs)
    case Some(consts) =>
      var st1 := st.(prog := st.prog.(consts := consts));
      assert st1 == WithConst(st, st.lex.t.text);
      var st2 := PushIndex(Push(st1, INST_NUM), idx);
      AppendedTransitive(st1, Push(st1, INST_NUM), st2, [INST_NUM], IndexBytes(idx));
      NumberOut(st2, Success, INST_NUM, Wrap(nexs + 1))
  }

  /** A successful number extends the parse: the constant pool grows by the
      token text, the code by `NUM` and the constant's index, which the
      reference decoder reads back. */
  lemma EmitNumberLayout(st: Parser, prev: Inst, nexs: SizeT)
    requires Valid(st) && |st.prog.consts| < SIZE_MAX
    ensures
      var r := EmitNumber(st, prev, nexs).st;
      var idx := |st.prog.consts|;
      && Extends(st, r)
      && r.prog.consts == st.prog.consts + [st.lex.t.text]
      && r.prog.strs == st.prog.strs && |r.prog.fns| == |st.prog.fns|
      && Code(r) == Code(st) + [INST_NUM] + IndexBytes(idx)
      && ReadIndex(Code(r)[|Code(st)| + 1..]) == Some((idx, |IndexBytes(idx)|))
  {
    var r := EmitNumber(st, prev, nexs).st;
    var idx := |st.prog.consts|;
    var st1 := WithConst(st, st.lex.t.text);
    AppendedFacts(st1, r, [INST_NUM] + IndexBytes(idx));
    assert Extends(st, st1);
    ExtendsTransitive(st, st1, r);
    ReadAfterOpcode(Code(st), INST_NUM, idx, Code(r));
  }

  /** An index emitted right after an opcode reads back from the byte after
      that opcode. */
  lemma ReadAfterOpcode(c0: seq<Byte>, op: Byte, idx: SizeT, c: seq<Byte>)
    requires c == c0 + [op] + IndexBytes(idx)
    ensures ReadIndex(c[|c0| + 1..]) == Some((idx, |IndexBytes(idx)|))
  {
    assert c[|c0| + 1..] == IndexBytes(idx) + [];
    IndexRoundTrip(idx, []);
  }

  /** The results of `bc_parse_addFunc`: the state, the status and the index
      written through `idx`. */
  datatype Added = Added(st: Parser, status: Status, idx: nat)

  /** `bc_parse_addFunc`: a new function named `name` is appended to the
      function table and its index returned; the active function is kept. */
  function AddFunc(st: Parser, name: CStr): (r: Added)
    requires Valid(st)
    ensures r.status == Success <==> |st.prog.fns| < SIZE_MAX
    ensures r.status != Success ==> r.st == st && r.status == AllocErr
    ensures r.status == Success ==>
      && Extends(st, r.st)
      && r.idx == |st.prog.fns|
      && r.st.prog.fns == st.prog.fns + [NewFunc(name)]
      && r.st == st.(prog := r.st.prog)
      && r.st.prog.consts == st.prog.consts && r.st.prog.strs == st.prog.strs
  {
    match VecPush(st.prog.fns, NewFunc(name))
    case None => Added(st, AllocErr, 0)
    case Some(fns) => Added(st.(prog := st.prog.(fns := fns)), Success, |st.prog.fns|)
  }

  /** The state error recovery leaves: back in the main function, at end of
      input, with the balance, `auto_part` and every bookkeeping stack cleared
      down to the base `flags` entry. */
  predicate Clean(st: Parser)
  {
    && st.fidx == MAIN
    && st.lex.t.kind.Eof? && st.lex.idx == |st.lex.toks|
    && st.nbraces == 0 && !st.autoPart
    && |st.flags| == 1 && st.exits == [] && st.conds == [] && st.ops == []
  }

  /** `bc_parse_reset`: a function whose definition was in progress loses its
      code, locals, labels and parameter count; every other function (main
      included) and both pools are kept; the parser returns to a clean state
      in main. The status is what the executor's reset hook makes of `s`. */
  function Reset(st: Parser, s: Status, hook: Status -> Status): (r: Step)
    requires Valid(st)
    ensures Valid(r.st) && Clean(r.st)
    ensures r.status == hook(s)
    ensures r.st.flags == [st.flags[0]]
    ensures r.st.lex.toks == st.lex.toks
    ensures r.st.prog.consts == st.prog.consts && r.st.prog.strs == st.prog.strs
    ensures |r.st.prog.fns| == |st.prog.fns|
    ensures forall j | 0 <= j < |st.prog.fns| && j != st.fidx :: r.st.prog.fns[j] == st.prog.fns[j]
    ensures st.fidx != MAIN ==> r.st.prog.fns[st.fidx] == Abandoned(st.prog.fns[st.fidx])
    ensures st.fidx == MAIN ==> r.st.prog == st.prog
  {
    var prog :=
      if st.fidx != MAIN then st.prog.(fns := st.prog.fns[st.fidx := Abandoned(st.prog.fns[st.fidx])])
      else st.prog;
    var lex := st.lex.(idx := |st.lex.toks|, t := st.lex.t.(kind := Eof));
    Step(Parser(lex, prog, MAIN, st.flags[..1], [], [], [], 0, false), hook(s))
  }

  /** The clean states are exactly the states reset leaves alone. */
  lemma ResetFixpoints(st: Parser, s: Status, hook: Status -> Status)
    requires Valid(st)
    ensures Reset(st, s, hook).st == st <==> Clean(st)
  {
    if Clean(st) {
      assert st.flags[..1] == st.flags;
      assert st.lex.t.(kind := Eof) == st.lex.t;
    }
  }

  /** Resetting twice leaves the same parser state as resetting once. */
  lemma ResetIdempotent(st: Parser, s1: Status, s2: Status, hook: Status -> Status)
    requires Valid(st)
    ensures Reset(Reset(st, s1, hook).st, s2, hook).st == Reset(st, s1, hook).st
  {
    ResetFixpoints(Reset(st, s1, hook).st, s2, hook);
  }

  /** `bc_parse_create`: empty bookkeeping stacks except `flags == [0]`, a zero
      balance, `auto_part` false, and `func` made active. The lexer state comes
      from the lexer's own initialisation, outside this model. */
  function Create(prog: Program, func: nat, lex: Lexer): (r: Parser)
    requires func < |prog.fns| < SIZE_MOD && |prog.consts| < SIZE_MOD && |prog.strs| < SIZE_MOD
    ensures Valid(r)
    ensures r.flags == [0] && r.nbraces == 0 && !r.autoPart
    ensures r.exits == [] && r.conds == [] && r.ops == []
    ensures r.fidx == func && r.prog == prog && r.lex == lex
  {
    Parser(lex, prog, func, [0], [], [], [], 0, false)
  }
}

=== FILE: prog.dfy ===
/**
 * The program representation the parsers write into: the constant pool, the
 * string pool and the function table, plus the opcode values. The opcode
 * enumeration (`BcInst`) and `BC_PROG_REQ_FUNCS` are set in headers outside
 * this model, so their values are left uninterpreted.
 */
module Prog {
  import opened CTypes

  /** An opcode: one byte of the instruction stream. */
  type Inst = Byte

  const INST_NUM: Inst
  const INST_STR: Inst
  const INST_NEG: Inst
  const INST_READ: Inst
  const INST_SWAP: Inst
  const INST_ASSIGN: Inst
  const INST_POP: Inst
  const INST_EXEC_COND: Inst
  const INST_POP_EXEC: Inst
  const INST_ARRAY_ELEM: Inst
  const INST_VAR: Inst
  const INST_PUSH_TO_VAR: Inst
  const INST_LOAD: Inst
  const INST_PUSH_VAR: Inst
  const INST_IBASE: Inst
  const INST_SCALE: Inst
  const INST_OBASE: Inst
  /** `BC_INST_REL_EQ`, the first of the six relational opcodes. */
  const INST_REL_EQ: Inst
  /** `BC_INST_INVALID`, the "no direct opcode" entry of the token table. */
  const INST_INVALID: Inst

  /** `BC_PROG_MAIN`: the top-level function, never removed. */
  const MAIN: nat := 0

  /** `BC_PROG_REQ_FUNCS`: how many functions exist before any string literal. */
  const REQ_FUNCS: nat

  /** An `auto` (local) variable: its name and whether it is a scalar. */
  datatype Auto = Auto(name: CStr, isVar: bool)

  /** A function: the name it is registered under in the function map, its
      code buffer, parameter count, local variables and label offsets. */
  datatype Func = Func(name: CStr, code: seq<Byte>, nparams: nat, autos: seq<Auto>, labels: seq<nat>)

  datatype Program = Program(consts: seq<CStr>, strs: seq<CStr>, fns: seq<Func>)

  /** A freshly registered function: no code, parameters, locals or labels. */
  function NewFunc(name: CStr): Func
  {
    Func(name, [], 0, [], [])
  }

  /** What error recovery leaves of a function whose definition is abandoned:
      its slot and name, with everything else emptied. */
  function Abandoned(f: Func): Func
  {
    f.(nparams := 0, code := [], autos := [], labels := [])
  }
}
